=== FILE: README.md ===
# SPI flash command driver of fix.c, in Dafny

`fix.c` carries a small SPI-flash driver lifted from the RP2040 boot ROM
(`program_flash_generic.c`). It drives the flash through the SSI
(synchronous serial interface) and controls chip select by hand through the
QSPI pad controls. Its functions:

- `flash_put_get` is a duplex transfer. It writes a byte only while the
  two FIFO levels add up to less than 14, which leaves room for two bytes
  held inside the SSI. It discards the first `rx_skip` bytes read back and
  stores the rest.
- `flash_do_cmd` and `flash_put_cmd_addr` frame a command.
- `flash_wait_ready` polls the busy bit.
- `flash_enable_write` sends WRITE_ENABLE.
- `erase_flash` is a fixed sequence of commands.
- `read_flash_sr` reads the three status registers.

This project models that driver over an abstract model of the hardware and
proves what it does to the FIFOs, the caller's buffers and the wire.

Files:

- `flash_defs.dfy` (module `FlashDefs`) holds the shared values and the
  pure arithmetic:
  - opcodes and `outover_t`;
  - the OUTOVER field update;
  - wire events and the transmit payload;
  - big-endian packing of a word;
  - the command+address word;
  - the assembled status value.
- `ssi.dfy` (module `SsiModel`) is the hardware.
  - `Hw` is a value. It holds:
    - the transmit and receive FIFOs (depth 16);
    - up to two received bytes held inside the SSI (`inner`), counted by
      neither FIFO level;
    - a lost-byte flag `fault`;
    - the SS pad control register;
    - the abort condition;
    - a busy counter `busyPolls`.
  - It also holds observation fields that the driver never reads:
    - logs of every byte written to and read from `dr0`;
    - every byte clocked out and clocked in;
    - the events on the SPI wire;
    - the flash's current command;
    - the most bytes ever in flight just after a write (`highWater`).
  - Pure transitions change it: `Clock`, `Land`, `Push`, `Pop` and
    `WriteCtrl`.
  - The class `Ssi { var hw: Hw; ghost var log: seq<Access> }` is the
    device as the driver sees it. Every register access first lets the
    hardware run (`Run`), then appends itself to `log`. An `Access` is a
    read of a FIFO level, a write or read of `dr0`, a read of the abort
    condition with the value read, or a read or write of the SS pad
    control register.
    - A run may clock out any prefix of the transmit FIFO. Each byte
      clocked out brings one byte in, which is held inside the SSI.
    - A run may land held bytes in the receive FIFO.
    - A run may raise the abort condition.
  - A stall budget bounds how long the SSI may leave bytes to clock out or
    to land untouched.
  - The flash is a status oracle. `busyPolls` counts the selections until
    one reports ready. Each falling edge of chip select counts it down, and
    the flash reports busy while it is still above zero. A program, erase
    or status-register-write command sets it to a count of the flash's own
    choosing.
- `bookkeeping.dfy` (module `Bookkeeping`) holds ghost predicates and
  lemmas on `Hw` values:
  - the state between commands (`Idle`) and the calling convention of
    `flash_put_get` (`Ready`);
  - the progress of a transfer (`Books`, `Transfer`, `Buffers`);
  - what one command did (`Ran`, `CmdFrame`, `Step`);
  - the wire traces of the poll and of the erase (`Polls`, `EraseTrace`).
- `accesses.dfy` (module `Accesses`) holds the sequences of register
  accesses the driver makes:
  - one iteration of `flash_put_get`'s loop (`Round`, `RoundLog`) and a run
    of that loop (`RoundsLog`, `Looped`, `Stopped`);
  - `flash_cs_force` (`CsForceLog`), a whole `flash_do_cmd` (`CmdLog`) and
    a whole `flash_wait_ready` (`PollLog`, `PollsLog`, `WaitLog`);
  - lemmas on what these sequences show about where the abort condition is
    read and how often chip select falls.
- `driver.dfy` (module `FlashDriver`) holds the C functions as methods on
  an `Ssi`.
  - Each register access is one accessor call, in the order of the C code.
  - `flash_put_get`'s loop is split across `Exchange`, which holds the
    loop, and `Iteration`, `Levels`, `Act`, `Move`, `Put`, `Get` and `Stalled`,
    which hold the pieces of its body.

The key results:

- From a `Ready` start, unless aborted, `PutGet` sends exactly the `count`
  payload bytes. That is `tx[0..count)` as it was on entry, or zeros when
  `tx` is NULL. This holds even when `rx` is the same buffer as `tx`. When
  the abort condition ends it early, what it sent is a prefix of them.
- It stores the bytes after the first `rx_skip` in arrival order into
  `rx[0..count)`, and leaves the rest of `rx` alone.
- No write ever leaves more bytes in flight than the receive FIFO holds
  (16), counting the two bytes the SSI may hold inside. So the receive FIFO
  never overflows. The guard of 14 on the two levels is what makes this
  hold: with a guard of 16 the requirement of `Put`, fewer than 16 bytes
  in flight, would not follow from the guard and the bound of `Levels`.
- It leaves the loop either with all counters zero, or after an iteration
  that wrote and read nothing, left the counters as they were, and saw the
  abort condition. Its register accesses are those of its iterations, one
  after the other. Every abort check comes straight after the two level
  reads of an iteration that wrote and read nothing. Only the last access
  may be an abort check that read the condition set, and it is exactly
  when the loop was left early.
- It raises chip select at the end with every other bit of the SS register
  kept.
- A command is seen on the wire exactly as: chip select low, the opcode,
  the payload, chip select high.
- `PutCmdAddr` drops chip select before it writes the four bytes. From
  `Idle`, the bytes of the command frame so far are exactly those four.
- `WaitReady` polls at least once, and every poll but the last reads busy.
  If the last one reads busy, the abort condition was raised. Its register
  accesses are those of its polls: each poll is one READ_STATUS command,
  which selects the flash once, followed by one abort check exactly when
  the answer is busy. Every abort check before the last poll read clear,
  and the last poll's check, when there is one, read set exactly when the
  loop ended there. So the loop stops at the first busy poll whose abort
  check reads set. With the abort
  condition raised on entry it polls exactly once. Unless aborted,
  the last poll reports ready and the flash is left not busy.
- `ReadFlashSr` packs the three buffer values into bits 23:0. Unless
  aborted, these are the second, fourth and sixth bytes read from `dr0`.
- Unless aborted, `EraseFlash` produces exactly `EraseTrace`.

## Model

| member | source | states |
|---|---|---|
| FlashDefs.WithOutover | fix.c:50-53 | the new register value has the OUTOVER field set to `over` and every other bit of the old value |
| FlashDefs.WordBytesRoundTrip | fix.c:118-122 | splitting a word into its four big-endian bytes and packing them again gives the word back |
| FlashDefs.CmdAddrFraming | fix.c:116-123 | for a 24-bit address the four bytes sent are `cmd`, `addr[23:16]`, `addr[15:8]`, `addr[7:0]`, and the word is `cmd<<24` plus `addr` |
| FlashDefs.CmdAddrWideAddress | fix.c:118 | for a wider address bits 31:24 of `addr` are or-ed into the opcode byte and the other three bytes are those of `addr` |
| FlashDefs.NextByte | fix.c:119-122 | one round of the shift loop writes the next big-endian byte of the word, and the shifted word leads with the remaining bytes |
| FlashDefs.StatusWordBytes | fix.c:182-189 | the value assembled from three status bytes fits in 24 bits, and its big-endian bytes are 0 and the three status bytes in reading order |
| SsiModel.Ssi.ReadTxflr | fix.c:79 | the level returned is the transmit FIFO length after the hardware ran |
| SsiModel.Ssi.ReadRxflr | fix.c:80 | the level returned is the receive FIFO length after the hardware ran |
| SsiModel.Ssi.ReadAbort | fix.c:42-43 | returns the abort condition as it stands after the hardware ran; once raised it stays raised |
| SsiModel.Ssi.ReadSsCtrl | fix.c:52 | returns the SS pad control register |
| SsiModel.Ssi.WriteSsCtrl | fix.c:52-53 | the register takes the written value; chip select follows its OUTOVER field, a falling edge starts a new command at the flash |
| SsiModel.Ssi.WriteDr0 | fix.c:83 | the byte is appended to the transmit FIFO and to the written log, or lost (fault) when the FIFO is full |
| SsiModel.Ssi.ReadDr0 | fix.c:88 | returns the head of the receive FIFO and logs it, or flags a fault when the FIFO is empty |
| Bookkeeping.BooksPush | fix.c:82-85 | a write made while fewer than 16 bytes are in flight, counting those held inside the SSI, is queued at the tail of the transmit FIFO, loses nothing, and leaves at most 16 in flight |
| Bookkeeping.RunNoLoss | fix.c:71-74 | while no more than 16 bytes are in flight, the hardware running on its own never overflows the receive FIFO and keeps the in-flight count |
| Bookkeeping.DataSkip | fix.c:90-91 | a byte read while bytes remain to skip adds nothing to the data stored |
| Bookkeeping.DataAppend | fix.c:92-95 | a byte read after the skipped ones is appended to the data stored |
| Bookkeeping.TransferStart | fix.c:70-76 | on entry the counters, the logs and both buffers satisfy the loop invariant |
| Bookkeeping.TransferRun | fix.c:78-80 | the invariant survives the hardware running between two register accesses |
| Bookkeeping.TransferEnd | fix.c:77-101 | at loop exit the bytes sent are a prefix of the payload, `rx` holds the data read so far and the rest unchanged; with all counters zero the whole payload went out in order and every byte came back |
| Bookkeeping.CsForceSteps | fix.c:49-60 | two register reads around the write only let the hardware run; the field update and the chip-select edge are the only changes |
| Bookkeeping.OpenedReady | fix.c:109-110 | from `Idle`, selecting the flash and writing the opcode leaves exactly one byte in flight, the `rx_skip` of 1 that follows |
| Bookkeeping.CmdDone | fix.c:108-112 | a command that ends without abort sent its whole payload, leaves the flash `Idle`, was seen on the wire as CS low, opcode, payload, CS high, and a READ_STATUS answer carries the busy bit |
| Bookkeeping.CmdWire | fix.c:108-112 | the wire shows the command framed by chip select |
| Bookkeeping.CmdStatus | fix.c:126-131 | every byte of a READ_STATUS answer after the echo carries the flash's busy bit |
| Bookkeeping.PollingStep | fix.c:127-130 | each poll brings the flash one poll closer to ready, and the loop repeats only when the answer was busy |
| Bookkeeping.Polls | fix.c:127-130 | `n` polls are `n` READ_STATUS commands of four wire events each |
| Bookkeeping.EraseTrace | fix.c:152-175 | the erase is four operations: a write enable (volatile for the first), the command with its data, then the polls |
| Bookkeeping.StepJoin | fix.c:152-175 | the wire traces of consecutive commands concatenate |
| Bookkeeping.Delivered | fix.c:116-123 | from `Idle`, every byte written since is either clocked out to the flash or still queued, in order |
| Accesses.RoundsLogged | fix.c:78-101 | one more iteration of a loop not yet left appends its accesses to the loop's log, and the loop is left exactly when that iteration read the abort condition set |
| Accesses.LoopedLog | fix.c:77-101 | in the accesses of the loop every abort check comes straight after the two level reads, no access but the last is an abort check that read the condition set, and the last one is exactly when the loop was left early |
| Accesses.CsForceLogged | fix.c:52-59 | the register read, the write of `over` and the read back make up `flash_cs_force`'s accesses |
| Accesses.CmdLogged | fix.c:108-112 | CS low, the opcode write, the loop's accesses and CS high make up a command's accesses |
| Accesses.PollsAppend | fix.c:127-130 | the log of the wait grows by one poll, whose abort check read clear while the wait goes on and read set when it ends there |
| Accesses.PollAppended | fix.c:127-130 | a poll's command and its abort check, made only when the answer is busy, extend the wait's log; only the last poll's loop may have been left early |
| Accesses.PollsClear | fix.c:126-131 | no abort check among polls that let the wait go on read the condition set |
| Accesses.WaitSelections | fix.c:126-131 | a whole wait selects the flash once per poll |
| Accesses.WaitLogChecks | fix.c:126-131 | a whole wait selects the flash once per poll, and it is its earlier polls, none of whose abort checks read set, followed by its last poll |
| FlashDriver.WasAborted | fix.c:41-44 | returns the abort condition and logs one abort check with the value read; from `Idle` nothing else changes |
| FlashDriver.CsForce | fix.c:49-60 | the OUTOVER field is `over`, every other register bit is kept, chip select follows, no byte is written or read; the accesses are a read, the write of `over`, and a read back |
| FlashDriver.Levels | fix.c:79-80 | logs the two level reads, transmit first; the two levels plus the two bytes the SSI may hold inside bound the bytes in flight; the receive level is exact |
| FlashDriver.Put | fix.c:82-85 | writes the next payload byte, `tx[i]` or 0, and advances the transmit position |
| FlashDriver.WriteByte | fix.c:83-84 | the byte written is the next payload byte and is never lost |
| FlashDriver.Get | fix.c:87-97 | reads one byte and discards it while bytes remain to skip, else stores it at the next `rx` position (nothing stored when `rx` is NULL) |
| FlashDriver.ReadByte | fix.c:88 | the byte read is the next byte the flash answered |
| FlashDriver.Store | fix.c:94 | `rx[i]` takes the byte and nothing else changes |
| FlashDriver.Move | fix.c:82-97 | an iteration either moves a byte and shrinks the loop measure, logging the write and then the read it made, or moves none, leaving the hardware, the counters, the positions and the log untouched |
| FlashDriver.Stalled | fix.c:99-100 | an idle iteration logs one abort check, writing and reading nothing; the hardware running meanwhile does not grow the loop measure |
| FlashDriver.Act | fix.c:82-100 | after the level reads, writes or reads a byte and shrinks the loop measure, or checks abort; it breaks exactly when that check read the condition set, having written and read nothing and left every counter unchanged |
| FlashDriver.Iteration | fix.c:78-100 | one loop iteration keeps the invariant and appends its round to the loop's log; it either shrinks the measure, or breaks exactly when it checked abort, read it set, wrote and read nothing, and left every counter unchanged |
| FlashDriver.Exchange | fix.c:77-101 | the loop ends with all counters zero, or with the abort condition raised; the log is its rounds in order, and the loop was left early exactly when the last round was an abort check that read the condition set, every earlier round having moved a byte or read it clear |
| FlashDriver.PutGet | fix.c:70-103 | sends the payload in order, discards `rx_skip` bytes and stores the next `count` bytes read into `rx`, never loses a byte, never leaves more than 16 bytes in flight after a write, ends all counters zero or after an iteration that moved no byte and saw abort, raises chip select; the log is the loop's rounds then the raising of chip select |
| FlashDriver.Open | fix.c:109-110 | from `Idle`, the flash is selected and the opcode is the one byte in flight; logs the lowering of chip select, then one write |
| FlashDriver.DoCmd | fix.c:108-112 | unless aborted, the flash saw CS low, the opcode, the payload, CS high; the bytes read after the echo are in `rx[0..count)`; the flash is `Idle` after; from `Idle`, no write left more than 16 bytes in flight, aborted or not; the log is CS low, the opcode write, the loop's rounds, CS high, and a loop left early means the abort condition is raised |
| FlashDriver.PushByte | fix.c:120 | the byte is logged, chip select untouched, and kept when the FIFOs have room; with the flash selected it joins the command frame |
| FlashDriver.PutWord | fix.c:119-122 | writes the four bytes of the word, most significant first, as four `dr0` writes, losing none while there is room, and with the flash selected they join the command frame in order |
| FlashDriver.PutCmdAddr | fix.c:116-123 | selects the flash, then writes exactly the four big-endian bytes of `addr \| cmd << 24`; from `Idle` they are all in flight in order and the command frame holds exactly those four bytes |
| FlashDriver.WaitReady | fix.c:126-131 | at least one READ_STATUS poll, every poll but the last busy, a busy last poll only with the abort condition raised, one poll when aborted on entry; the log is the polls in order, each a command followed, when busy, by an abort check that read clear, except that the last one's check read set; unless aborted, as many polls as the flash stays busy for (at least one), the last ready, the flash not busy after |
| FlashDriver.Poll | fix.c:128-130 | one READ_STATUS poll, then the abort check when the answer is busy; the loop goes on only after a busy answer whose abort check read clear, and then the flash is one poll closer to ready; the log of the wait grows by this poll |
| FlashDriver.EnableWrite | fix.c:134-136 | unless aborted, the flash saw one WRITE_ENABLE command with no data; the log is that one command |
| FlashDriver.Operate | fix.c:160-174 | write enable, the command, then polling until ready; the flash is not busy after |
| FlashDriver.EraseFlash | fix.c:152-175 | unless aborted, the wire carries exactly `EraseTrace`, with at least one poll after each command, and the flash is not busy at the end |
| FlashDriver.ReadRegister | fix.c:182-187 | `s` is the first buffer byte afterwards; unless aborted, the driver read exactly the opcode's echo and `s` from `dr0`, the second buffer byte is untouched, and a READ_STATUS answer carries the busy bit |
| FlashDriver.RegistersRead | fix.c:182-189 | three register reads in a row: the flash saw the three commands, and unless aborted the six bytes read are three echoes each followed by its register value |
| FlashDriver.ReadFlashSr | fix.c:177-192 | the result fits in 24 bits and its bytes are 0 and the three buffer values in reading order; unless aborted those are the second, fourth and sixth bytes read from `dr0`, the first carrying the busy bit, and the flash saw the three commands |

## Left out

- `init_flash_ssi` (fix.c:140-150) calls boot-ROM functions found through `rom_func_lookup`. That code is not part of this model. Its effect (pads connected, XIP exited, SSI in SPI mode) is the requirement `Valid()` together with `Idle` or the abort condition.
- `main` (fix.c:194-216) is stdio, LED GPIO, sleeps and an endless blink loop, with no driver logic.
- The `GENERAL_SIZE_HACKS` branch of `flash_cs_force` (fix.c:54-57) is compile-time configuration that overwrites the whole register. Only the default branch is modelled.
- Concrete register addresses and bit offsets are abstract fields of `Hw`. The OUTOVER field keeps its position, bits 9:8.
- Interrupts and the 48-cycles-per-byte timing budget (fix.c:46-48, 98) are not modelled. The hardware instead makes arbitrary progress between two register accesses, bounded by a stall budget so that the SSI eventually clocks a non-empty transmit FIFO out.
- What the flash does with a command is not modelled: what the SR2/SR3 bits mean, and whether the erase happens. The flash only answers READ_STATUS with its busy bit and chooses how long an operation keeps it busy. Its answers to other commands are arbitrary.
- FlashDriver.PutGet: when the call does not start `Ready` (exactly `rx_skip` bytes in flight, none lost), its results are specified only when the abort condition is already raised on entry. A call from any other state may not terminate in the model.
- FlashDriver.Get: the store `*rx++` is made only while the position is inside the array. In a call that starts `Ready` this always holds. Outside that case the C code could write past the buffer, and the model drops the byte instead.
- FlashDriver.WaitReady: the uninitialised `stat` (fix.c:127) is modelled as a fresh one-byte array of unspecified contents. After a poll that aborted before storing, the loop test reads whatever it holds, as in C.
- FlashDriver.WaitReady: a flash that never becomes ready is not modelled. `busyPolls` is a natural number, so the flash reports ready after finitely many selections, and without the abort condition the wait always ends. In C such a flash keeps `flash_wait_ready` polling until the abort condition is raised (fix.c:39-40, 126-131). The model covers only the finite case of that.
- FlashDriver.PutCmdAddr: `cmd << 24` on an opcode of 0x80 or more shifts into the sign bit of a C `int`. The model takes the 32-bit two's-complement result.
- FlashDriver.ReadFlashSr: its call is commented out in `main` (fix.c:206). It is modelled anyway.
- FlashDriver.Operate, FlashDriver.EraseFlash, FlashDriver.ReadRegister and FlashDriver.ReadFlashSr do not state their register accesses. They only chain `EnableWrite`, `DoCmd`, `PutCmdAddr`, `PutGet` and `WaitReady`, which do. The wire trace they state fixes the order of their commands.
- The register access log records which register was touched and, for the abort check, the value read. The bytes themselves are in the observation fields of `Hw`.
- The SSI's internal holding stage is abstract: at most two received bytes, between the shift register and the receive FIFO, landing in order at a time the hardware chooses. The depth of two is the slack `flash_put_get` allows for (fix.c:74). Its timing and the transmit side's own internal stage are not modelled.
- `size_t` counters are unbounded naturals bounded by `SizeMax` in the requirements. The wrap-around of `--rx_count` below zero, which the loop never reaches from a `Ready` state, is written out as `SizeDecrement`.

=== FILE: accesses.dfy ===
/**
 * The register accesses the driver in driver.dfy makes, as recorded in the
 * `log` of an `Ssi`: one iteration of the loop of `flash_put_get`
 * (`RoundLog`), a run of that loop (`RoundsLog`), a whole `flash_do_cmd`
 * (`CmdLog`) and a whole `flash_wait_ready` (`WaitLog`), with what these
 * sequences show about where the abort condition is checked.
 */
module Accesses {
  import opened FlashDefs
  import opened SsiModel

  /**
   * One iteration of the loop of `flash_put_get` (fix.c:78-100): after the
   * two level reads, either it wrote or read `dr0` (`Moved`), or it did
   * neither and checked the abort condition, reading `raised` (`Checked`).
   */
  datatype Round = Moved(wrote: bool, read: bool) | Checked(raised: bool)

  /** The accesses of one iteration, in order: the two level reads, then what it did. */
  function RoundLog(r: Round): seq<Access> {
    [TxLevelRead, RxLevelRead] + ActLog(r)
  }

  /**
   * The accesses of an iteration after its level reads: the write of `dr0`,
   * then the read, each only when made; or the abort check.
   */
  function ActLog(r: Round): seq<Access> {
    match r
    case Moved(wrote, read) => (if wrote then [DataWrite] else []) + (if read then [DataRead] else [])
    case Checked(raised) => [AbortRead(raised)]
  }

  /** The `dr0` accesses of an iteration, as the optional write and the optional read log them. */
  lemma MovedLog(l0: seq<Access>, l1: seq<Access>, l2: seq<Access>, wrote: bool, read: bool)
    requires l1 == l0 + (if wrote then [DataWrite] else []) && l2 == l1 + (if read then [DataRead] else [])
    ensures l2 == l0 + (if wrote || read then ActLog(Moved(wrote, read)) else [])
  {
  }

  /** The accesses of an iteration, as its level reads and the rest log them. */
  lemma RoundLogged(l0: seq<Access>, l1: seq<Access>, l2: seq<Access>, r: Round)
    requires l1 == l0 + [TxLevelRead, RxLevelRead] && l2 == l1 + ActLog(r)
    ensures l2 == l0 + RoundLog(r)
  {
  }

  /** The accesses of the iterations `rounds`, one after the other. */
  function RoundsLog(rounds: seq<Round>): seq<Access> {
    if rounds == [] then [] else RoundsLog(rounds[..|rounds| - 1]) + RoundLog(rounds[|rounds| - 1])
  }

  /**
   * The iterations of one run of the loop: each that did not check the
   * abort condition moved a byte, and only the last one may have read the
   * abort condition set.
   */
  ghost predicate Looped(rounds: seq<Round>) {
    && (forall i :: 0 <= i < |rounds| && rounds[i].Moved? ==> rounds[i].wrote || rounds[i].read)
    && (forall i :: 0 <= i < |rounds| - 1 ==> rounds[i] != Checked(true))
  }

  /** The loop was left by the `break` of fix.c:99-100. */
  predicate Stopped(rounds: seq<Round>) {
    rounds != [] && rounds[|rounds| - 1] == Checked(true)
  }

  /** One more iteration of a loop that has not stopped. */
  lemma RoundsAppend(rounds: seq<Round>, r: Round)
    requires Looped(rounds) && !Stopped(rounds) && (r.Moved? ==> r.wrote || r.read)
    ensures RoundsLog(rounds + [r]) == RoundsLog(rounds) + RoundLog(r)
    ensures Looped(rounds + [r]) && (Stopped(rounds + [r]) <==> r == Checked(true))
  {
    assert (rounds + [r])[..|rounds|] == rounds;
  }

  /** The log of a loop after one more iteration `r`. */
  lemma RoundsLogged(log0: seq<Access>, rounds: seq<Round>, r: Round, l: seq<Access>)
    requires Looped(rounds) && !Stopped(rounds) && (r.Moved? ==> r.wrote || r.read)
    requires l == log0 + RoundsLog(rounds) + RoundLog(r)
    ensures l == log0 + RoundsLog(rounds + [r]) && Looped(rounds + [r])
    ensures Stopped(rounds + [r]) <==> r == Checked(true)
  {
    RoundsAppend(rounds, r);
    Regroup(log0, RoundsLog(rounds), RoundLog(r));
  }

  /**
   * What the accesses of a run of the loop show: every abort check comes
   * straight after the two level reads, with no write or read of `dr0` in
   * the same iteration; no access but the last is an abort check that read
   * the condition set; and the last one is exactly when the loop stopped.
   */
  lemma {:induction false} LoopedLog(rounds: seq<Round>)
    requires Looped(rounds)
    ensures var l := RoundsLog(rounds);
      && (forall i :: 0 <= i < |l| && l[i].AbortRead? ==> 2 <= i && l[i - 2] == TxLevelRead && l[i - 1] == RxLevelRead)
      && (forall i :: 0 <= i < |l| - 1 ==> l[i] != AbortRead(true))
      && (Stopped(rounds) <==> l != [] && l[|l| - 1] == AbortRead(true))
  {
    if rounds != [] {
      var init, r := rounds[..|rounds| - 1], rounds[|rounds| - 1];
      assert Looped(init) by {
        assert forall i :: 0 <= i < |init| ==> init[i] == rounds[i];
      }
      assert !Stopped(init) by {
        if init != [] {
          assert init[|init| - 1] == rounds[|rounds| - 2];
        }
      }
      LoopedLog(init);
      var l0, l1 := RoundsLog(init), RoundLog(r);
      var l := RoundsLog(rounds);
      assert l == l0 + l1;
      assert |l1| >= 2 && l1[0] == TxLevelRead && l1[1] == RxLevelRead;
      assert forall j :: 0 <= j < |l1| - 1 ==> !l1[j].AbortRead?;
      assert forall j :: 0 <= j < |l1| && l1[j].AbortRead? ==> j == 2 && r.Checked?;
      forall i | 0 <= i < |l| && l[i].AbortRead?
        ensures 2 <= i && l[i - 2] == TxLevelRead && l[i - 1] == RxLevelRead
      {
        if i >= |l0| {
          assert l[i] == l1[i - |l0|];
        }
      }
      forall i | 0 <= i < |l| - 1
        ensures l[i] != AbortRead(true)
      {
        if i >= |l0| {
          assert l[i] == l1[i - |l0|];
        }
      }
    }
  }

  /** The three accesses of `flash_cs_force(over)` (fix.c:52-59). */
  function CsForceLog(over: Outover): seq<Access> {
    [SsCtrlRead, SsCtrlWrite(over), SsCtrlRead]
  }

  /** The accesses of `flash_cs_force`, as its three register accesses log them. */
  lemma CsForceLogged(l0: seq<Access>, l1: seq<Access>, l2: seq<Access>, l3: seq<Access>, over: Outover)
    requires l1 == l0 + [SsCtrlRead] && l2 == l1 + [SsCtrlWrite(over)] && l3 == l2 + [SsCtrlRead]
    ensures l3 == l0 + CsForceLog(over)
  {
  }

  /**
   * The accesses of `flash_do_cmd` (fix.c:108-112) whose transfer loop ran
   * the iterations `rounds`: select, write the opcode, the loop, release.
   */
  function CmdLog(rounds: seq<Round>): seq<Access> {
    CsForceLog(Low) + [DataWrite] + RoundsLog(rounds) + CsForceLog(High)
  }

  /**
   * One round of `flash_wait_ready` (fix.c:129-130): the READ_STATUS command,
   * then, only when the answer `stat` reads busy, the abort check reading
   * `raised`.
   */
  function PollLog(rounds: seq<Round>, stat: byte, raised: bool): seq<Access> {
    CmdLog(rounds) + (if Busy(stat) then [AbortRead(raised)] else [])
  }

  /** The accesses of `flash_do_cmd`, as selecting and writing the opcode, then the transfer, log them. */
  lemma CmdLogged(l0: seq<Access>, l1: seq<Access>, l2: seq<Access>, rounds: seq<Round>)
    requires l1 == l0 + CsForceLog(Low) + [DataWrite] && l2 == l1 + RoundsLog(rounds) + CsForceLog(High)
    ensures l2 == l0 + CmdLog(rounds)
  {
  }

  /** The accesses of one poll, as the command and the optional abort check log them. */
  lemma PollLogged(l0: seq<Access>, l1: seq<Access>, l2: seq<Access>, rounds: seq<Round>, stat: byte, raised: bool)
    requires l1 == l0 + CmdLog(rounds) && l2 == l1 + (if Busy(stat) then [AbortRead(raised)] else [])
    ensures l2 == l0 + PollLog(rounds, stat, raised)
  {
  }

  /** Polls that each let the loop go on: every abort check among them read clear. */
  function PollsLog(cmds: seq<seq<Round>>, stats: seq<byte>): seq<Access>
    requires |cmds| == |stats|
  {
    if stats == [] then []
    else PollsLog(cmds[..|cmds| - 1], stats[..|stats| - 1]) + PollLog(cmds[|cmds| - 1], stats[|stats| - 1], false)
  }

  /**
   * A whole `flash_wait_ready`: polls that let the loop go on, then a last
   * one whose abort check, when its answer read busy, read the condition set.
   */
  function WaitLog(cmds: seq<seq<Round>>, stats: seq<byte>): seq<Access>
    requires |cmds| == |stats| > 0
  {
    PollsLog(cmds[..|cmds| - 1], stats[..|stats| - 1]) + PollLog(cmds[|cmds| - 1], stats[|stats| - 1], true)
  }

  lemma PollsAppend(cmds: seq<seq<Round>>, stats: seq<byte>, rounds: seq<Round>, s: byte)
    requires |cmds| == |stats|
    ensures PollsLog(cmds + [rounds], stats + [s]) == PollsLog(cmds, stats) + PollLog(rounds, s, false)
    ensures WaitLog(cmds + [rounds], stats + [s]) == PollsLog(cmds, stats) + PollLog(rounds, s, true)
  {
    assert (cmds + [rounds])[..|cmds|] == cmds;
    assert (stats + [s])[..|stats|] == stats;
  }

  /**
   * The transfer loops `cmds` of the polls of `flash_wait_ready` so far, the
   * loop going on exactly when `again`: each is a run of the loop, and only
   * the last, ending the wait, may have been left by its `break`.
   */
  ghost predicate Transfers(cmds: seq<seq<Round>>, again: bool) {
    forall i :: 0 <= i < |cmds| ==> Looped(cmds[i]) && (Stopped(cmds[i]) ==> !again && i == |cmds| - 1)
  }

  /**
   * The log of `flash_wait_ready` after one more poll, which let the loop go
   * on exactly when `again`.
   */
  lemma PollsLogged(log0: seq<Access>, cmds: seq<seq<Round>>, stats: seq<byte>, rounds: seq<Round>, s: byte, again: bool,
                    l: seq<Access>)
    requires |cmds| == |stats|
    requires l == log0 + PollsLog(cmds, stats) + PollLog(rounds, s, !again)
    ensures again ==> l == log0 + PollsLog(cmds + [rounds], stats + [s])
    ensures !again ==> l == log0 + WaitLog(cmds + [rounds], stats + [s])
  {
    var before, poll := PollsLog(cmds, stats), PollLog(rounds, s, !again);
    Regroup(log0, before, poll);
    PollsAppend(cmds, stats, rounds, s);
  }

  lemma Regroup(a: seq<Access>, b: seq<Access>, c: seq<Access>)
    ensures a + b + c == a + (b + c)
  {
  }

  /** The transfer loops of the polls after one more, which let the loop go on exactly when `again`. */
  lemma TransfersAppend(cmds: seq<seq<Round>>, rounds: seq<Round>, again: bool)
    requires Transfers(cmds, true) && Looped(rounds) && (Stopped(rounds) ==> !again)
    ensures Transfers(cmds + [rounds], again)
  {
    var cmds' := cmds + [rounds];
    forall i | 0 <= i < |cmds'|
      ensures Looped(cmds'[i]) && (Stopped(cmds'[i]) ==> !again && i == |cmds'| - 1)
    {
      if i < |cmds| {
        assert cmds'[i] == cmds[i];
      }
    }
  }
  /**
   * One more poll of `flash_wait_ready`, logged after the polls `cmds` and
   * `stats`: its command, then, when its answer `s` reads busy, the abort
   * check, which read the condition set exactly when the loop ends here.
   */
  lemma PollAppended(log0: seq<Access>, cmds: seq<seq<Round>>, stats: seq<byte>, rounds: seq<Round>, s: byte, again: bool,
                     l1: seq<Access>, l2: seq<Access>, l: seq<Access>)
    requires |cmds| == |stats| && l1 == log0 + PollsLog(cmds, stats) && Transfers(cmds, true)
    requires l2 == l1 + CmdLog(rounds) && l == l2 + (if Busy(s) then [AbortRead(!again)] else [])
    requires Looped(rounds) && (Stopped(rounds) ==> !again)
    ensures Transfers(cmds + [rounds], again)
    ensures again ==> l == log0 + PollsLog(cmds + [rounds], stats + [s])
    ensures !again ==> l == log0 + WaitLog(cmds + [rounds], stats + [s])
  {
    PollLogged(l1, l2, l, rounds, s, !again);
    PollsLogged(log0, cmds, stats, rounds, s, again, l);
    TransfersAppend(cmds, rounds, again);
  }


  /** How many times the accesses `l` select the flash: writes of OUTOVER low. */
  function Selections(l: seq<Access>): nat {
    multiset(l)[SsCtrlWrite(Low)]
  }

  /** A run of the transfer loop never touches chip select. */
  lemma {:induction false} RoundsSelections(rounds: seq<Round>)
    ensures Selections(RoundsLog(rounds)) == 0
  {
    if rounds != [] {
      var init, r := rounds[..|rounds| - 1], rounds[|rounds| - 1];
      RoundsSelections(init);
      RoundSelections(r);
      assert RoundsLog(rounds) == RoundsLog(init) + RoundLog(r);
    }
  }

  /** One iteration never touches chip select. */
  lemma RoundSelections(r: Round)
    ensures Selections(RoundLog(r)) == 0
  {
    assert SsCtrlWrite(Low) !in RoundLog(r);
  }

  /** One command selects the flash once. */
  lemma PollSelections(rounds: seq<Round>, stat: byte, raised: bool)
    ensures Selections(PollLog(rounds, stat, raised)) == 1
  {
    RoundsSelections(rounds);
  }

  /** `flash_wait_ready` selects the flash once per poll: the log shows how many polls were sent. */
  lemma {:induction false} WaitSelections(cmds: seq<seq<Round>>, stats: seq<byte>)
    requires |cmds| == |stats| > 0
    ensures Selections(WaitLog(cmds, stats)) == |stats|
  {
    PollsSelections(cmds[..|cmds| - 1], stats[..|stats| - 1]);
    PollSelections(cmds[|cmds| - 1], stats[|stats| - 1], true);
  }

  lemma {:induction false} PollsSelections(cmds: seq<seq<Round>>, stats: seq<byte>)
    requires |cmds| == |stats|
    ensures Selections(PollsLog(cmds, stats)) == |stats|
  {
    if stats != [] {
      PollsSelections(cmds[..|cmds| - 1], stats[..|stats| - 1]);
      PollSelections(cmds[|cmds| - 1], stats[|stats| - 1], false);
    }
  }

  /** A run of the loop that was not left by its `break` read the abort condition set nowhere. */
  lemma RoundsClear(rounds: seq<Round>)
    requires Looped(rounds) && !Stopped(rounds)
    ensures AbortRead(true) !in RoundsLog(rounds)
  {
    LoopedLog(rounds);
  }

  /**
   * In polls that each let the loop go on, made of transfers that did not
   * stop, no abort check read the condition set.
   */
  lemma {:induction false} PollsClear(cmds: seq<seq<Round>>, stats: seq<byte>)
    requires |cmds| == |stats|
    requires forall i :: 0 <= i < |cmds| ==> Looped(cmds[i]) && !Stopped(cmds[i])
    ensures AbortRead(true) !in PollsLog(cmds, stats)
  {
    if stats != [] {
      var n := |cmds| - 1;
      PollsClear(cmds[..n], stats[..n]);
      RoundsClear(cmds[n]);
      var poll := PollLog(cmds[n], stats[n], false);
      assert AbortRead(true) !in poll by {
        assert poll == CsForceLog(Low) + [DataWrite] + RoundsLog(cmds[n]) + CsForceLog(High)
                       + (if Busy(stats[n]) then [AbortRead(false)] else []);
      }
      assert PollsLog(cmds, stats) == PollsLog(cmds[..n], stats[..n]) + poll;
    }
  }

  /**
   * What a whole `flash_wait_ready` shows: it selected the flash once per
   * poll, and every abort check before its last poll read clear.
   */
  lemma WaitLogChecks(cmds: seq<seq<Round>>, stats: seq<byte>)
    requires |cmds| == |stats| > 0
    requires forall i :: 0 <= i < |cmds| ==> Looped(cmds[i]) && (Stopped(cmds[i]) ==> i == |cmds| - 1)
    ensures Selections(WaitLog(cmds, stats)) == |stats|
    ensures var before := PollsLog(cmds[..|cmds| - 1], stats[..|stats| - 1]);
      && WaitLog(cmds, stats) == before + PollLog(cmds[|cmds| - 1], stats[|stats| - 1], true)
      && AbortRead(true) !in before
  {
    var n := |cmds| - 1;
    assert AbortRead(true) !in PollsLog(cmds[..n], stats[..n]) by {
      var early := cmds[..n];
      forall i | 0 <= i < |early|
        ensures Looped(early[i]) && !Stopped(early[i])
      {
        assert early[i] == cmds[i];
      }
      PollsClear(early, stats[..n]);
    }
    WaitSelections(cmds, stats);
  }
}

=== FILE: bookkeeping.dfy ===
/**
 * Ghost bookkeeping for the driver in driver.dfy, on `Hw` values: the states
 * between commands (`Idle`, `Ready`), what a run of `flash_put_get` has sent
 * and read so far (`Books`, `Transfer`, `Buffers`), what one command did
 * (`Ran`, `CmdFrame`, `Step`), and the wire traces of `flash_wait_ready` and
 * `erase_flash` (`Polls`, `EraseTrace`).  Every proof about the hardware
 * that a driver method needs is a lemma here, so the methods only chain them.
 */
module Bookkeeping {
  import opened FlashDefs
  import opened SsiModel

  /**
   * Between commands: chip select released, the SSI drained, no byte lost,
   * and no write ever left more bytes in flight than the receive FIFO holds.
   */
  ghost predicate Idle(h: Hw) {
    !h.fault && h.Quiet() && h.rx == [] && !h.Selected() && h.highWater <= FifoDepth
  }

  /**
   * The calling convention of `flash_put_get` (fix.c:67-69): the bytes in
   * flight are exactly the `skip` bytes to be discarded, they fit in the
   * receive FIFO, no byte was lost, and no write ever left more bytes in
   * flight than the receive FIFO holds.
   */
  ghost predicate Ready(h: Hw, skip: nat) {
    !h.fault && h.InFlight() == skip && skip <= FifoDepth && h.highWater <= FifoDepth
  }

  /** With nothing to clock out or to land, a run of the hardware changes nothing but the stall budget and the abort condition. */
  lemma IdleRun(h: Hw, h': Hw)
    requires h.Valid() && h.Quiet() && Progress(h, h')
    ensures h' == h.(stall := h'.stall, abort := h'.abort) && h'.Quiet()
  {
    var h2 := h.(stall := h'.stall, abort := h'.abort);
    assert h'.tx == [] && h'.mosi == h.mosi by {
      assert h.tx[..0] == [];
    }
    assert h'.miso == h.miso by {
      assert h'.miso == h'.miso[..|h.miso|];
    }
    assert h'.rx == h.rx && h'.inner == [] by {
      assert h'.rx[..|h.rx|] == h.rx;
    }
    assert h'.fault == h.fault;
    assert h'.wire == h.wire && h'.frame == h.frame by {
      assert h.tx[..0] == [] && Outs([]) == [];
    }
    assert h' == h2;
  }

  /** What the driver's writes own stays put, and the abort condition stays raised. */
  ghost predicate Kept(h0: Hw, h: Hw) {
    h.written == h0.written && h.popped == h0.popped && h.highWater == h0.highWater && (h0.abort ==> h.abort)
  }

  // ---------------------------------------------------------------------------
  // Bookkeeping of a transfer, on values

  lemma SplitAppend(m: seq<byte>, s: seq<byte>, k: nat)
    requires k <= |m|
    ensures (m + s)[..k] == m[..k] && (m + s)[k..] == m[k..] + s
  {
  }

  /**
   * Since `h0` the SSI clocked out the bytes `h.mosi[|h0.mosi|..]`, and,
   * when the flash was selected, the flash saw each of them on the wire and
   * added it to its command.
   */
  ghost predicate Since(h0: Hw, h: Hw) {
    && |h0.mosi| <= |h.mosi| && h.mosi[..|h0.mosi|] == h0.mosi
    && h.wire == h0.wire + (if h0.Selected() then Outs(h.mosi[|h0.mosi|..]) else [])
    && h.frame == h0.frame + (if h0.Selected() then h.mosi[|h0.mosi|..] else [])
  }

  /** Clocking out `shifted` more bytes extends what `Since` says, seen on sequences. */
  lemma SinceShift<T>(m0: seq<byte>, m: seq<byte>, shifted: seq<byte>, l0: seq<T>, l: seq<T>, sel: bool, f: seq<byte> -> seq<T>)
    requires |m0| <= |m| && m[..|m0|] == m0
    requires l == l0 + (if sel then f(m[|m0|..]) else [])
    requires forall a, b :: f(a + b) == f(a) + f(b)
    ensures (m + shifted)[..|m0|] == m0
    ensures l + (if sel then f(shifted) else []) == l0 + (if sel then f((m + shifted)[|m0|..]) else [])
  {
    SplitAppend(m, shifted, |m0|);
    if sel {
      assert f((m + shifted)[|m0|..]) == f(m[|m0|..]) + f(shifted);
    }
  }

  lemma SinceRun(h0: Hw, h: Hw, h': Hw)
    requires Since(h0, h) && TxProgress(h, h') && WireProgress(h, h') && h.cs == h0.cs
    ensures Since(h0, h')
  {
    var shifted := h.tx[..|h.tx| - |h'.tx|];
    forall a, b ensures Outs(a + b) == Outs(a) + Outs(b) {
      OutsAppend(a, b);
    }
    SinceShift(h0.mosi, h.mosi, shifted, h0.wire, h.wire, h0.Selected(), Outs);
    SinceShift(h0.mosi, h.mosi, shifted, h0.frame, h.frame, h0.Selected(), (s: seq<byte>) => s);
  }

  /**
   * The transfer so far wrote `sent` to `dr0` and read `got` from it; the
   * driver-owned registers are as they were at `h0`; every write to `dr0`
   * left at most `FifoDepth` bytes in flight, or no more than the most a
   * write had left before `h0`; the abort condition stays raised.
   */
  ghost predicate Books(h0: Hw, h: Hw, sent: seq<byte>, got: seq<byte>) {
    && h.written == h0.written + sent && h.popped == h0.popped + got
    && h.ssCtrl == h0.ssCtrl && h.cs == h0.cs && h.busyPolls == h0.busyPolls && h.frameStart == h0.frameStart
    && h.highWater <= Max(h0.highWater, FifoDepth)
    && (h0.abort ==> h.abort)
    && Since(h0, h)
  }

  lemma BooksStart(h: Hw)
    ensures Books(h, h, [], [])
  {
    assert h.mosi[..|h.mosi|] == h.mosi;
    assert h.mosi[|h.mosi|..] == [];
  }

  lemma BooksRun(h0: Hw, h: Hw, h': Hw, sent: seq<byte>, got: seq<byte>)
    requires Books(h0, h, sent, got) && Advanced(h, h')
    ensures Books(h0, h', sent, got)
  {
    SinceRun(h0, h, h');
  }

  /** A write to `dr0` after the hardware ran: logged, and kept when the FIFOs have room. */
  lemma Pushed(h: Hw, seen: Hw, b: byte)
    requires h.Valid() && Advanced(h, seen)
    ensures seen.Push(b).written == h.written + [b] && seen.Push(b).cs == h.cs
    ensures h.abort ==> seen.Push(b).abort
    ensures !h.fault && h.InFlight() < FifoDepth ==> !seen.Push(b).fault && seen.Push(b).InFlight() == h.InFlight() + 1
    ensures h.Selected() && !h.fault && h.InFlight() < FifoDepth ==>
      seen.Push(b).frame + seen.Push(b).tx == h.frame + h.tx + [b]
  {
    if !h.fault && h.InFlight() < FifoDepth {
      RunNoLoss(h, seen);
      if h.Selected() {
        SelectedQueue(h, seen);
      }
    }
  }

  /**
   * While the flash is selected, the hardware running on its own only moves
   * bytes from the transmit FIFO to what the flash saw: the two together
   * stay the same.
   */
  lemma SelectedQueue(h: Hw, h': Hw)
    requires Advanced(h, h') && h.Selected()
    ensures h'.frame + h'.tx == h.frame + h.tx
  {
    var k := |h.tx| - |h'.tx|;
    assert h.tx[..k] + h.tx[k..] == h.tx;
  }

  /** Moving the first of the bytes still to send over to the bytes sent. */
  lemma MoveHead(before: seq<byte>, sent: seq<byte>, rest: seq<byte>)
    requires rest != []
    ensures (sent + [rest[0]]) + rest[1..] == sent + rest
    ensures before + sent + [rest[0]] == before + (sent + [rest[0]])
  {
  }

  /** From `Idle`, every byte written since is either clocked out to the flash or still queued, in order. */
  lemma Delivered(h0: Hw, h: Hw, sent: seq<byte>)
    requires h0.Valid() && Idle(h0) && h.Valid() && !h.fault && h.written == h0.written + sent
    ensures h.mosi + h.tx == h0.mosi + sent
  {
  }

  /**
   * A write made while fewer than `FifoDepth` bytes are in flight is queued,
   * loses nothing, and leaves at most `FifoDepth` bytes in flight.
   */
  lemma BooksPush(h0: Hw, h: Hw, sent: seq<byte>, got: seq<byte>, b: byte)
    requires Books(h0, h, sent, got) && h.InFlight() < FifoDepth
    ensures Books(h0, h.Push(b), sent + [b], got)
    ensures h.Push(b).tx == h.tx + [b] && h.Push(b).fault == h.fault
    ensures h.Push(b).InFlight() == h.InFlight() + 1 <= FifoDepth
  {
  }

  lemma BooksPop(h0: Hw, h: Hw, sent: seq<byte>, got: seq<byte>)
    requires Books(h0, h, sent, got) && h.rx != []
    ensures Books(h0, h.Pop(), sent, got + [h.Head()])
  {
  }

  /**
   * The counters of a transfer that started `Ready` for `skip0`: nothing is
   * lost, what is still to be read (`rxSkip + rxCount`) is exactly what is
   * in flight plus what is still to be written, and `nGot` bytes were read.
   */
  ghost predicate Counters(h: Hw, count: nat, skip0: nat, txCount: nat, rxSkip: nat, rxCount: nat, nGot: nat) {
    && !h.fault && h.InFlight() <= FifoDepth
    && txCount <= count && rxSkip <= skip0 && rxCount <= count
    && (rxSkip > 0 ==> rxCount == count)
    && nGot == skip0 - rxSkip + count - rxCount
    && rxSkip + rxCount == h.InFlight() + txCount
  }

  /** While no more than a FIFO's worth is in flight, the hardware loses nothing and keeps the count in flight. */
  lemma RunNoLoss(h: Hw, h': Hw)
    requires h.Valid() && Advanced(h, h') && !h.fault && h.InFlight() <= FifoDepth
    ensures !h'.fault && h'.InFlight() == h.InFlight()
  {
    assert |h'.miso| == |h'.popped| + |h'.rx| + |h'.inner|;
  }

  lemma CountersRun(h: Hw, h': Hw, count: nat, skip0: nat, txCount: nat, rxSkip: nat, rxCount: nat, nGot: nat)
    requires h.Valid() && Advanced(h, h') && Counters(h, count, skip0, txCount, rxSkip, rxCount, nGot)
    ensures Counters(h', count, skip0, txCount, rxSkip, rxCount, nGot)
  {
    RunNoLoss(h, h');
  }

  lemma CountersPush(h: Hw, b: byte, count: nat, skip0: nat, txCount: nat, rxSkip: nat, rxCount: nat, nGot: nat)
    requires Counters(h, count, skip0, txCount, rxSkip, rxCount, nGot) && txCount > 0 && h.InFlight() < FifoDepth
    ensures Counters(h.Push(b), count, skip0, txCount - 1, rxSkip, rxCount, nGot)
  {
  }

  lemma CountersPop(h: Hw, count: nat, skip0: nat, txCount: nat, rxSkip: nat, rxCount: nat, nGot: nat)
    requires Counters(h, count, skip0, txCount, rxSkip, rxCount, nGot) && h.rx != []
    ensures rxSkip == 0 ==> rxCount > 0
    ensures rxSkip > 0 ==> Counters(h.Pop(), count, skip0, txCount, rxSkip - 1, rxCount, nGot + 1)
    ensures rxSkip == 0 ==> Counters(h.Pop(), count, skip0, txCount, 0, rxCount - 1, nGot + 1)
  {
  }

  /** The bytes of `got` after the first `skip`: the ones stored to the receive buffer. */
  function Data(got: seq<byte>, skip: nat): seq<byte> {
    if |got| <= skip then [] else got[skip..]
  }

  lemma DataAppend(got: seq<byte>, skip: nat, b: byte)
    requires skip <= |got|
    ensures Data(got + [b], skip) == Data(got, skip) + [b]
  {
  }

  lemma DataSkip(got: seq<byte>, skip: nat, b: byte)
    requires |got| < skip
    ensures Data(got + [b], skip) == []
  {
  }

  lemma PrefixStep(p: seq<byte>, i: nat)
    requires i < |p|
    ensures p[..i + 1] == p[..i] + [p[i]]
  {
  }

  lemma UpdateSplit(s: seq<byte>, i: nat, b: byte, done: seq<byte>, rest: seq<byte>)
    requires i < |s| && s[..i] == done && s[i..] == rest
    ensures s[i := b][..i + 1] == done + [b] && s[i := b][i + 1..] == rest[1..]
  {
  }

  lemma UpdateBelow(s: seq<byte>, i: nat, b: byte, j: nat, k: nat)
    requires i < j <= k <= |s|
    ensures s[i := b][j..k] == s[j..k]
  {
  }

  lemma SliceStep(s: seq<byte>, t: seq<byte>, j: nat, k: nat)
    requires j < k <= |s| && s[j..k] == t
    ensures s[j] == t[0] && s[j + 1..k] == t[1..]
  {
  }

  // ---------------------------------------------------------------------------
  // Termination of the transfer loop

  /** `h'` is no further from the end than `h`: in flight, then steps pending in the SSI, then stall budget. */
  ghost predicate RankLe(h: Hw, h': Hw) {
    || h'.InFlight() < h.InFlight()
    || (h'.InFlight() == h.InFlight() && (h'.Pending() < h.Pending() || (h'.Pending() == h.Pending() && h'.stall <= h.stall)))
  }

  ghost predicate RankLt(h: Hw, h': Hw) {
    || h'.InFlight() < h.InFlight()
    || (h'.InFlight() == h.InFlight() && (h'.Pending() < h.Pending() || (h'.Pending() == h.Pending() && h'.stall < h.stall)))
  }

  /** A run of the hardware never adds bytes in flight, and moves on whenever the SSI has a step pending. */
  lemma RunRank(h: Hw, h': Hw)
    requires Advanced(h, h')
    ensures h'.InFlight() <= h.InFlight() && |h.rx| <= |h'.rx|
    ensures RankLe(h, h') && (h.Pending() > 0 ==> RankLt(h, h'))
  {
  }

  lemma RankChain(h0: Hw, h1: Hw, h2: Hw)
    requires RankLt(h0, h1) && RankLe(h1, h2)
    ensures RankLt(h0, h2)
  {
  }

  // ---------------------------------------------------------------------------
  // Chip select

  /**
   * `h` is `h0` after `flash_cs_force(over)` with the SSI quiet: the OUTOVER
   * field written, nothing clocked out or landed meanwhile, only the stall
   * budget and the abort condition moved on.
   */
  ghost predicate Forced(h0: Hw, h: Hw, over: Outover) {
    h == h0.WriteCtrl(WithOutover(h0.ssCtrl, over), h.busyPolls).(stall := h.stall, abort := h.abort)
  }

  /** The three register accesses of `flash_cs_force`, on values. */
  lemma CsForceSteps(h0: Hw, h1: Hw, seen: Hw, h2: Hw, h3: Hw, over: Outover)
    requires h0.Valid() && Advanced(h0, h1) && Advanced(h1, seen)
    requires h2 == seen.WriteCtrl(WithOutover(h1.ssCtrl, over), h2.busyPolls) && h2.Valid() && Advanced(h2, h3)
    ensures h3.cs == over && h3.ssCtrl == WithOutover(h0.ssCtrl, over) && Kept(h0, h3)
    ensures h0.Quiet() ==>
      Forced(h0, h3, over)
  {
    var v := WithOutover(h0.ssCtrl, over);
    assert h2.cs == OutoverOf(v);
    if h0.Quiet() {
      CsForceQuiet(h0, h1, seen, h2, h3, v);
    }
  }

  lemma CsForceQuiet(h0: Hw, h1: Hw, seen: Hw, h2: Hw, h3: Hw, v: bv32)
    requires h0.Valid() && h0.Quiet() && Advanced(h0, h1) && Advanced(h1, seen) && h1.ssCtrl == h0.ssCtrl
    requires h2 == seen.WriteCtrl(v, h2.busyPolls) && h2.Valid() && Advanced(h2, h3)
    ensures h3 == h0.WriteCtrl(v, h3.busyPolls).(stall := h3.stall, abort := h3.abort)
  {
    IdleRun(h0, h1);
    IdleRun(h1, seen);
    assert seen == h0.(stall := seen.stall, abort := seen.abort);
    assert h2.Quiet();
    IdleRun(h2, h3);
    WriteCtrlSettle(h0, v, h3.busyPolls, seen.stall, seen.abort);
  }

  /** Writing the SS pad control register does not touch the stall budget or the abort condition. */
  lemma WriteCtrlSettle(h: Hw, v: bv32, busyFor: nat, stall: nat, abort: bool)
    ensures h.(stall := stall, abort := abort).WriteCtrl(v, busyFor) == h.WriteCtrl(v, busyFor).(stall := stall, abort := abort)
  {
  }

  // ---------------------------------------------------------------------------
  // flash_put_get

  /**
   * What stays fixed during one call of `flash_put_get`: the state it
   * started from, whether it started `Ready`, the byte count and skip count,
   * the bytes it is to send, and the receive buffer's original contents.
   */
  datatype Call = Call(h0: Hw, clean: bool, count: nat, skip0: nat, payload: seq<byte>, rx0: seq<byte>)

  /**
   * The loop invariant of `flash_put_get` on the hardware: `sent` and `got`
   * are what was written to and read from `dr0`; `count - txCount` bytes
   * were sent, and in a transfer that started `Ready` they are the first
   * bytes of the payload and the counters balance.  A transfer that did not
   * start `Ready` is only followed when the abort condition is raised.
   */
  ghost predicate Transfer(c: Call, h: Hw, txCount: nat, rxSkip: nat, rxCount: nat, sent: seq<byte>, got: seq<byte>) {
    && h.Valid()
    && txCount <= c.count && |sent| == c.count - txCount && |c.payload| == c.count
    && Books(c.h0, h, sent, got)
    && (!c.clean ==> h.abort)
    && (c.clean ==> Counters(h, c.count, c.skip0, txCount, rxSkip, rxCount, |got|) && sent == c.payload[..c.count - txCount])
  }

  /**
   * The loop invariant of `flash_put_get` on the caller's buffers: the bytes
   * still to be sent are untouched, the data bytes received so far are
   * stored at the front of `rxbuf`, and the rest of `rxbuf` is untouched.
   */
  ghost predicate Buffers(c: Call, txbuf: array?<byte>, rxbuf: array?<byte>, txPos: nat, rxPos: nat, rxCount: nat, got: seq<byte>)
    reads txbuf, rxbuf
  {
    && (txbuf != null ==> c.count <= txbuf.Length)
    && (rxbuf != null ==> c.count <= rxbuf.Length && |c.rx0| == rxbuf.Length)
    && (c.clean && txbuf == null ==> c.payload == Zeros(c.count))
    && (c.clean && txbuf != null ==> txPos <= c.count == |c.payload| && txbuf[txPos..c.count] == c.payload[txPos..])
    && (c.clean && rxbuf != null ==>
          rxPos == c.count - rxCount && rxbuf[..rxPos] == Data(got, c.skip0) && rxbuf[rxPos..] == c.rx0[rxPos..])
  }

  lemma TransferRun(c: Call, h: Hw, h': Hw, txCount: nat, rxSkip: nat, rxCount: nat, sent: seq<byte>, got: seq<byte>)
    requires Transfer(c, h, txCount, rxSkip, rxCount, sent, got) && Advanced(h, h')
    ensures Transfer(c, h', txCount, rxSkip, rxCount, sent, got)
    ensures RankLe(h, h') && (h.Pending() > 0 ==> RankLt(h, h')) && |h.rx| <= |h'.rx|
  {
    BooksRun(c.h0, h, h', sent, got);
    RunRank(h, h');
    if c.clean {
      CountersRun(h, h', c.count, c.skip0, txCount, rxSkip, rxCount, |got|);
    }
  }

  /**
   * The measure of the transfer loop went down: fewer bytes to send (each
   * counting twice), fewer bytes in flight, or else the same and the
   * hardware moved on.
   */
  ghost predicate Shrinks(h: Hw, txCount: nat, h': Hw, txCount': nat) {
    || 2 * txCount' + h'.InFlight() < 2 * txCount + h.InFlight()
    || (txCount' == txCount && RankLt(h, h'))
  }

  /** Before the first iteration nothing was sent or received and both buffers are as the caller passed them. */
  lemma TransferStart(c: Call, txbuf: array?<byte>, rxbuf: array?<byte>)
    requires c.h0.Valid() && (c.h0.abort || Ready(c.h0, c.skip0)) && c.clean == Ready(c.h0, c.skip0)
    requires c.count <= SizeMax && c.skip0 <= SizeMax
    requires txbuf != null ==> c.count <= txbuf.Length
    requires rxbuf != null ==> c.count <= rxbuf.Length && c.rx0 == rxbuf[..]
    requires c.payload == Payload(txbuf, c.count)
    ensures Transfer(c, c.h0, c.count, c.skip0, c.count, [], [])
    ensures Buffers(c, txbuf, rxbuf, 0, 0, c.count, [])
  {
    BooksStart(c.h0);
  }

  /**
   * What the loop invariant says once the loop is left: the whole payload
   * went out and every expected byte came back when all three counters are
   * zero, and the data bytes received so far sit at the front of `rxbuf`.
   */
  lemma TransferEnd(c: Call, h: Hw, txbuf: array?<byte>, rxbuf: array?<byte>, txPos: nat, rxPos: nat,
                    txCount: nat, rxSkip: nat, rxCount: nat, sent: seq<byte>, got: seq<byte>)
    requires c.h0.Valid() && (c.clean ==> !c.h0.fault)
    requires Transfer(c, h, txCount, rxSkip, rxCount, sent, got) && Buffers(c, txbuf, rxbuf, txPos, rxPos, rxCount, got)
    ensures |sent| <= c.count
    ensures c.clean ==> !h.fault && sent == c.payload[..|sent|] && |got| <= c.skip0 + c.count
    ensures c.clean && rxbuf != null ==>
      var d := Data(got, c.skip0); |d| <= c.count && rxbuf[..|d|] == d && rxbuf[|d|..] == c.rx0[|d|..]
    ensures c.clean && txCount == 0 && rxSkip == 0 && rxCount == 0 ==>
      && h.Quiet() && h.rx == [] && |sent| == c.count && |got| == c.skip0 + c.count
      && h.mosi == c.h0.mosi + c.h0.tx + sent
  {
    if c.clean && txCount == 0 && rxSkip == 0 && rxCount == 0 {
      assert h.written == h.mosi + h.tx && h.tx == [];
      assert c.h0.written == c.h0.mosi + c.h0.tx;
    }
  }

  // ---------------------------------------------------------------------------
  // Commands

  /** What the flash sees of one command: selected, the opcode and the data bytes clocked out, released. */
  function CmdFrame(op: byte, data: seq<byte>): (w: seq<WireEvent>)
    ensures |w| == |data| + 3 && w[0] == Cs(Low) && w[1] == Out(op) && w[|w| - 1] == Cs(High)
  {
    [Cs(Low)] + Outs([op] + data) + [Cs(High)]
  }

  /**
   * `h` follows `h0` through driver calls that leave the flash deselected
   * and the FIFOs empty unless the abort condition is raised; while it is
   * not, the flash saw exactly `w` on the wire.
   */
  ghost predicate Step(h0: Hw, h: Hw, w: seq<WireEvent>) {
    && h.Valid() && (h0.abort ==> h.abort) && (h.abort || Idle(h))
    && (!h.abort ==> h.wire == h0.wire + w)
  }

  lemma StepJoin(h0: Hw, h1: Hw, h2: Hw, w1: seq<WireEvent>, w2: seq<WireEvent>)
    requires Step(h0, h1, w1) && Step(h1, h2, w2)
    ensures Step(h0, h2, w1 + w2)
  {
    if !h2.abort {
      assert h2.wire == h0.wire + w1 + w2;
    }
  }

  /**
   * What a command `op` sending `payload` did to the logs and the flash,
   * from `h0` to `h`: the driver wrote the opcode and the payload, read back
   * `got` (one byte per byte written), the flash came one poll closer to
   * ready unless `op` started an operation, and the answers to READ_STATUS
   * after the echo carry its busy bit.
   */
  ghost predicate Ran(h0: Hw, h: Hw, op: byte, payload: seq<byte>, got: seq<byte>) {
    && h.written == h0.written + [op] + payload
    && h.popped == h0.popped + got && |got| == |payload| + 1
    && (!StartsOperation(op) ==> h.busyPolls == Decrement(h0.busyPolls))
    && (op == ReadStatus ==> AllReport(got[1..], h.busyPolls > 0))
  }

  /** The wire events of `n` status polls of `flash_wait_ready`: READ_STATUS commands with one zero byte sent. */
  function Polls(n: nat): (w: seq<WireEvent>)
    ensures |w| == 4 * n
    ensures n > 0 ==> w[0] == Cs(Low) && w[1] == Out(ReadStatus)
  {
    if n == 0 then [] else Polls(n - 1) + CmdFrame(ReadStatus, [0])
  }

  /**
   * The wire events of one step of `erase_flash`: a write-enable command
   * `enable`, the command `op` with its data, then `n` status polls.
   */
  function Operation(enable: byte, op: byte, data: seq<byte>, n: nat): (w: seq<WireEvent>)
    ensures |w| == |data| + 6 + 4 * n
  {
    CmdFrame(enable, []) + CmdFrame(op, data) + Polls(n)
  }

  /**
   * What the flash sees of `erase_flash` when the status polls took `n1` to
   * `n4` rounds: volatile status-register write enable and SR2 cleared, then
   * write enable and chip erase, write enable and SR2 cleared, write enable
   * and SR3 set to 0x20, each followed by polling until ready.
   */
  function EraseTrace(n1: nat, n2: nat, n3: nat, n4: nat): (w: seq<WireEvent>)
    ensures |w| == 27 + 4 * (n1 + n2 + n3 + n4)
  {
    Operation(VolatileSrWriteEnable, WriteSr2, [0], n1)
    + Operation(WriteEnable, ChipErase, [], n2)
    + Operation(WriteEnable, WriteSr2, [0], n3)
    + Operation(WriteEnable, WriteSr3, [0x20], n4)
  }

  /**
   * The progress of `flash_wait_ready` from a flash that had `busy0` busy
   * polls to go, after the polls that read `stats`, with `again` telling
   * whether it polls once more.
   */
  ghost predicate Polling(busy0: nat, busy: nat, stats: seq<byte>, again: bool) {
    && busy == (if |stats| <= busy0 then busy0 - |stats| else 0)
    && |stats| <= Max(busy0, 1)
    && (forall i :: 0 <= i < |stats| - 1 ==> Busy(stats[i]))
    && (stats != [] ==> (Busy(stats[|stats| - 1]) <==> busy > 0))
    && (again <==> stats == [] || Busy(stats[|stats| - 1]))
  }

  /** One more poll, answered by the busy bit of a flash that had `busy1` polls to go. */
  lemma PollingStep(busy0: nat, busy1: nat, busy2: nat, stats: seq<byte>, s: byte, got: seq<byte>)
    requires Polling(busy0, busy1, stats, true)
    requires busy2 == Decrement(busy1) && |got| == 2 && got[1] == s && AllReport(got[1..], busy2 > 0)
    ensures Polling(busy0, busy2, stats + [s], Busy(s))
    ensures Busy(s) ==> busy2 < busy1
  {
    AllReportAt(got[1..], busy2 > 0, 0);
  }

  /** `h` is `h0` after `flash_do_cmd` selected the flash and wrote the opcode `op`, nothing clocked out yet. */
  ghost predicate Opened(h0: Hw, h: Hw, op: byte) {
    h == h0.WriteCtrl(WithOutover(h0.ssCtrl, Low), h.busyPolls).(stall := h.stall, abort := h.abort).Push(op)
  }

  /**
   * From `Idle`, selecting the flash and writing the opcode leaves exactly the
   * opcode in flight: `flash_put_get` may be called with one byte to skip.
   */
  lemma OpenedReady(h0: Hw, h: Hw, op: byte)
    requires h0.Valid() && Idle(h0) && Opened(h0, h, op)
    ensures Ready(h, 1) && h.tx == [op] && h.Selected() && h.frame == [] && h.frameStart == |h0.mosi|
    ensures h.written == h0.written + [op] && h.popped == h0.popped && h.mosi == h0.mosi && h.miso == h0.miso
    ensures h.wire == h0.wire + [Cs(Low)] && h.busyPolls == Decrement(h0.busyPolls)
  {
  }

  /**
   * A command that started `Idle` in `h0`: `h2` after the opcode was
   * written, `ended` when the transfer ran to its end having sent `payload`
   * and read back `got`, `h3` after chip select was raised again.
   */
  ghost predicate CmdRan(h0: Hw, h2: Hw, ended: Hw, h3: Hw, op: byte, payload: seq<byte>, got: seq<byte>) {
    && h0.Valid() && Idle(h0) && Opened(h0, h2, op)
    && Books(h2, ended, payload, got) && ended.Quiet() && ended.rx == [] && !ended.fault
    && |got| == 1 + |payload| && ended.mosi == h2.mosi + h2.tx + payload
    && Forced(ended, h3, High)
    && h3.Valid()
  }

  /**
   * A command `op` with data `payload` from `Idle` in `h0`, as `flash_do_cmd`
   * runs it, with the abort condition clear at the end `h3`: `h2` is the
   * state after the opcode was written, and from there `flash_put_get`
   * wrote `sent`, read back `got` and left its loop in `ended` (with all its
   * counters at zero when `done`), then raised chip select.
   */
  ghost predicate Answered(h0: Hw, h2: Hw, ended: Hw, h3: Hw, done: bool, op: byte, payload: seq<byte>,
                           sent: seq<byte>, got: seq<byte>) {
    && h0.Valid() && Idle(h0) && Opened(h0, h2, op) && h3.Valid() && !h3.abort
    && (done || ended.abort)
    && Books(h2, ended, sent, got) && Kept(ended, h3) && |sent| <= |payload|
    && (ended.Quiet() ==> Forced(ended, h3, High))
    && (Ready(h2, 1) ==> !ended.fault && sent == payload[..|sent|])
    && (Ready(h2, 1) && done ==>
          && ended.Quiet() && ended.rx == [] && |sent| == |payload| && |got| == 1 + |payload|
          && ended.mosi == h2.mosi + h2.tx + sent)
  }

  /**
   * What `flash_put_get` promises about a command's transfer, when the abort
   * condition is still clear at its end: the transfer ran to its end and
   * sent exactly `payload`, so the whole command ran (`CmdRan`).
   */
  lemma CmdEnd(h0: Hw, h2: Hw, ended: Hw, h3: Hw, done: bool, op: byte, payload: seq<byte>,
               sent: seq<byte>, got: seq<byte>)
    requires Answered(h0, h2, ended, h3, done, op, payload, sent, got)
    ensures CmdRan(h0, h2, ended, h3, op, sent, got) && sent == payload
  {
    OpenedReady(h0, h2, op);
    assert done;
  }

  /**
   * A command whose transfer ended with the abort condition still clear
   * leaves the flash `Idle`, was seen whole on the wire, and grew the logs
   * by exactly the opcode, the payload and the bytes read back.
   */
  lemma CmdDone(h0: Hw, h2: Hw, ended: Hw, h3: Hw, done: bool, op: byte, payload: seq<byte>,
                sent: seq<byte>, got: seq<byte>)
    requires Answered(h0, h2, ended, h3, done, op, payload, sent, got)
    ensures Idle(h3) && Ready(h2, 1) && done && sent == payload && |got| == 1 + |payload|
    ensures h3.wire == h0.wire + CmdFrame(op, payload)
    ensures h3.written == h0.written + [op] + payload && h3.popped == h0.popped + got
    ensures !StartsOperation(op) ==> h3.busyPolls == Decrement(h0.busyPolls)
    ensures op == ReadStatus ==> AllReport(got[1..], h3.busyPolls > 0)
  {
    CmdEnd(h0, h2, ended, h3, done, op, payload, sent, got);
    OpenedReady(h0, h2, op);
    CmdIdle(h0, h2, ended, h3, op, payload, got);
    CmdWire(h0, h2, ended, h3, op, payload, got);
    if op == ReadStatus {
      CmdStatus(h0, h2, ended, h3, payload, got);
    }
  }

  /** After a command that ran to its end the flash is `Idle` again, and the logs grew by the command. */
  lemma CmdIdle(h0: Hw, h2: Hw, ended: Hw, h3: Hw, op: byte, payload: seq<byte>, got: seq<byte>)
    requires CmdRan(h0, h2, ended, h3, op, payload, got)
    ensures Idle(h3)
    ensures h3.written == h0.written + [op] + payload && h3.popped == h0.popped + got
    ensures !StartsOperation(op) ==> h3.busyPolls == Decrement(h0.busyPolls)
  {
    assert h2.tx == [op] && h2.Selected() && h2.frame == [] && h2.mosi == h0.mosi
        && h2.written == h0.written + [op] && h2.popped == h0.popped
        && h2.busyPolls == Decrement(h0.busyPolls) by {
      OpenedReady(h0, h2, op);
    }
    assert ended.frame == [op] + payload && ended.Selected() by {
      SinceCmd(h2, ended, [op] + payload);
    }
    assert ended.written == h0.written + [op] + payload && ended.popped == h0.popped + got;
    Closed(ended, h3);
  }

  /** The flash saw the whole command, framed by chip select. */
  lemma CmdWire(h0: Hw, h2: Hw, ended: Hw, h3: Hw, op: byte, payload: seq<byte>, got: seq<byte>)
    requires CmdRan(h0, h2, ended, h3, op, payload, got)
    ensures h3.wire == h0.wire + CmdFrame(op, payload)
  {
    assert h2.wire == h0.wire + [Cs(Low)] && h2.Selected() by {
      OpenedReady(h0, h2, op);
    }
    assert ended.wire == h2.wire + Outs([op] + payload) by {
      OpenedReady(h0, h2, op);
      SinceCmd(h2, ended, [op] + payload);
    }
    assert h3.wire == ended.wire + [Cs(High)] by {
      Closed(ended, h3);
    }
    WireJoin(h0.wire, h2.wire, ended.wire, h3.wire, op, payload);
  }

  lemma WireJoin(w0: seq<WireEvent>, w1: seq<WireEvent>, w2: seq<WireEvent>, w3: seq<WireEvent>,
                 op: byte, payload: seq<byte>)
    requires w1 == w0 + [Cs(Low)] && w2 == w1 + Outs([op] + payload) && w3 == w2 + [Cs(High)]
    ensures w3 == w0 + CmdFrame(op, payload)
  {
  }

  /**
   * A READ_STATUS command read back the busy bit of the flash, as it stood
   * after the falling edge of chip select, in every byte after the echo.
   */
  lemma CmdStatus(h0: Hw, h2: Hw, ended: Hw, h3: Hw, payload: seq<byte>, got: seq<byte>)
    requires CmdRan(h0, h2, ended, h3, ReadStatus, payload, got)
    ensures AllReport(got[1..], h3.busyPolls > 0)
  {
    OpenedReady(h0, h2, ReadStatus);
    SinceCmd(h2, ended, [ReadStatus] + payload);
    Closed(ended, h3);
    assert h0.miso == h0.popped;
    StatusOfCmd(h3, h0.popped, got);
  }

  /** The bytes clocked out since the opcode was written are the command the flash received. */
  lemma SinceCmd(h2: Hw, ended: Hw, data: seq<byte>)
    requires Since(h2, ended) && h2.Selected() && h2.frame == [] && ended.mosi == h2.mosi + data
    ensures ended.wire == h2.wire + Outs(data) && ended.frame == data
  {
    assert ended.mosi[|h2.mosi|..] == data;
  }

  /** Raising chip select records the edge and keeps the command the flash received. */
  lemma Closed(h: Hw, h': Hw)
    requires h.Selected()
    requires Forced(h, h', High)
    ensures h'.wire == h.wire + [Cs(High)] && h'.frame == h.frame && h'.frameStart == h.frameStart
    ensures h'.tx == h.tx && h'.inner == h.inner && h'.rx == h.rx && h'.fault == h.fault && !h'.Selected()
    ensures h'.written == h.written && h'.popped == h.popped && h'.mosi == h.mosi && h'.miso == h.miso
    ensures h.frame == [] || !StartsOperation(h.frame[0]) ==> h'.busyPolls == h.busyPolls
  {
  }

  /**
   * Within a READ_STATUS command that has been read back in full, every
   * byte after the echo carries the busy bit.
   */
  lemma StatusOfCmd(h: Hw, popped0: seq<byte>, got: seq<byte>)
    requires h.Valid() && !h.fault && h.rx == [] && h.inner == [] && h.popped == popped0 + got
    requires h.frameStart == |popped0| && |h.frame| == |got| && h.frame != [] && h.frame[0] == ReadStatus
    ensures AllReport(got[1..], h.busyPolls > 0)
  {
    assert h.miso == popped0 + got;
    assert h.miso[h.frameStart + 1..h.frameStart + |h.frame|] == got[1..];
  }

}

=== FILE: driver.dfy ===
/**
 * The SPI flash command driver of fix.c (lines 41-192), over the SSI model:
 * `flash_was_aborted`, `flash_cs_force`, `flash_put_get`, `flash_do_cmd`,
 * `flash_put_cmd_addr`, `flash_wait_ready`, `flash_enable_write`,
 * `erase_flash` and `read_flash_sr`.  Every C function is a method taking
 * the device `hw`; each register access in the C code is one call of an
 * `Ssi` accessor, in the same order.
 *
 * The proofs of the methods are carried by lemmas over `Hw` values: what a
 * run of the hardware, a write and a read of `dr0` do to the driver's
 * bookkeeping.
 */
module FlashDriver {
  import opened FlashDefs
  import opened SsiModel
  import opened Bookkeeping
  import opened Accesses

  /** `flash_was_aborted` (fix.c:41-44): reads the abort condition. */
  method WasAborted(hw: Ssi) returns (aborted: bool)
    requires hw.Valid()
    modifies hw
    ensures hw.Valid() && Advanced(old(hw.hw), hw.hw) && aborted == hw.hw.abort
    ensures hw.log == old(hw.log) + [AbortRead(aborted)]
    ensures old(Idle(hw.hw)) ==> hw.hw == old(hw.hw).(stall := hw.hw.stall, abort := hw.hw.abort)
  {
    aborted := hw.ReadAbort();
    if Idle(old(hw.hw)) {
      IdleRun(old(hw.hw), hw.hw);
    }
  }

  /**
   * `flash_cs_force` (fix.c:49-60): a read-modify-write of the SS pad
   * control register that sets its OUTOVER field to `over`, then a read to
   * flush the bus bridge.
   */
  method CsForce(hw: Ssi, over: Outover)
    requires hw.Valid()
    modifies hw
    ensures hw.Valid()
    ensures hw.hw.cs == over && hw.hw.ssCtrl == WithOutover(old(hw.hw.ssCtrl), over)
    ensures Kept(old(hw.hw), hw.hw) && hw.log == old(hw.log) + CsForceLog(over)
    ensures old(hw.hw).Quiet() ==>
      Forced(old(hw.hw), hw.hw, over)
  {
    ghost var h0, l0 := hw.hw, hw.log;
    var reg := hw.ReadSsCtrl();
    ghost var h1, l1 := hw.hw, hw.log;
    ghost var seen := hw.WriteSsCtrl(WithOutover(reg, over));
    ghost var h2, l2 := hw.hw, hw.log;
    var _ := hw.ReadSsCtrl();
    CsForceSteps(h0, h1, seen, h2, hw.hw, over);
    CsForceLogged(l0, l1, l2, hw.log, over);
  }

  /**
   * The level reads at the top of the loop (fix.c:79-80), transmit level
   * first: their sum, plus the bytes the SSI may hold between its shift
   * register and its receive FIFO, bounds what is in flight afterwards.
   */
  method Levels(hw: Ssi, ghost c: Call, ghost txCount: nat, ghost rxSkip: nat, ghost rxCount: nat,
                ghost sent: seq<byte>, ghost got: seq<byte>)
      returns (txLevel: nat, rxLevel: nat)
    requires Transfer(c, hw.hw, txCount, rxSkip, rxCount, sent, got)
    modifies hw
    ensures Transfer(c, hw.hw, txCount, rxSkip, rxCount, sent, got)
    ensures hw.hw.InFlight() <= txLevel + rxLevel + InnerDepth && rxLevel == |hw.hw.rx|
    ensures hw.log == old(hw.log) + [TxLevelRead, RxLevelRead]
    ensures RankLe(old(hw.hw), hw.hw) && (old(hw.hw).Pending() > 0 ==> RankLt(old(hw.hw), hw.hw))
    ensures c.clean && (txCount != 0 || rxSkip != 0 || rxCount != 0) && rxLevel == 0 && (txCount == 0 || txLevel >= MaxInFlight)
            ==> RankLt(old(hw.hw), hw.hw)
  {
    ghost var h0 := hw.hw;
    txLevel := hw.ReadTxflr();
    ghost var h1 := hw.hw;
    TransferRun(c, h0, h1, txCount, rxSkip, rxCount, sent, got);
    rxLevel := hw.ReadRxflr();
    TransferRun(c, h1, hw.hw, txCount, rxSkip, rxCount, sent, got);
  }

  /** Writes the next byte to `dr0`: `tx[txPos]`, or zero when `tx` is null (fix.c:83-84). */
  method Put(hw: Ssi, txbuf: array?<byte>, ghost rxbuf: array?<byte>, txPos: nat, ghost rxPos: nat,
             ghost c: Call, ghost txCount: nat, ghost rxSkip: nat, ghost rxCount: nat,
             ghost sent: seq<byte>, ghost got: seq<byte>)
      returns (ghost b: byte)
    requires Transfer(c, hw.hw, txCount, rxSkip, rxCount, sent, got) && Buffers(c, txbuf, rxbuf, txPos, rxPos, rxCount, got)
    requires txCount > 0 && txPos == c.count - txCount && hw.hw.InFlight() < FifoDepth
    modifies hw
    ensures Transfer(c, hw.hw, txCount - 1, rxSkip, rxCount, sent + [b], got)
    ensures Buffers(c, txbuf, rxbuf, txPos + 1, rxPos, rxCount, got)
    ensures hw.hw.InFlight() <= old(hw.hw).InFlight() + 1 && |old(hw.hw).rx| <= |hw.hw.rx|
    ensures hw.log == old(hw.log) + [DataWrite]
  {
    b := if txbuf == null then 0 else txbuf[txPos];
    if c.clean {
      PrefixStep(c.payload, txPos);
      if txbuf != null {
        SliceStep(txbuf[..], c.payload[txPos..], txPos, c.count);
      }
    }
    WriteByte(hw, if txbuf == null then 0 else txbuf[txPos], c, txCount, rxSkip, rxCount, sent, got);
  }

  /** The write to `dr0` of `flash_put_get`, and what it does to the transfer's bookkeeping. */
  method WriteByte(hw: Ssi, b: byte, ghost c: Call, ghost txCount: nat, ghost rxSkip: nat, ghost rxCount: nat,
                   ghost sent: seq<byte>, ghost got: seq<byte>)
    requires Transfer(c, hw.hw, txCount, rxSkip, rxCount, sent, got)
    requires txCount > 0 && hw.hw.InFlight() < FifoDepth
    requires c.clean ==> b == c.payload[c.count - txCount]
    modifies hw
    ensures Transfer(c, hw.hw, txCount - 1, rxSkip, rxCount, sent + [b], got)
    ensures hw.hw.InFlight() <= old(hw.hw).InFlight() + 1 && |old(hw.hw).rx| <= |hw.hw.rx|
    ensures hw.log == old(hw.log) + [DataWrite]
  {
    ghost var h0 := hw.hw;
    ghost var seen := hw.WriteDr0(b);
    TransferRun(c, h0, seen, txCount, rxSkip, rxCount, sent, got);
    BooksPush(c.h0, seen, sent, got, b);
    if c.clean {
      CountersPush(seen, b, c.count, c.skip0, txCount, rxSkip, rxCount, |got|);
      PrefixStep(c.payload, c.count - txCount);
    }
  }

  /**
   * Reads one byte from `dr0` and either counts it off the bytes to skip or
   * stores it to `rx` (dropped when `rx` is null) and counts it off the bytes
   * to receive (fix.c:88-96).
   */
  method Get(hw: Ssi, ghost txbuf: array?<byte>, rxbuf: array?<byte>, ghost txPos: nat, rxPos: nat,
             rxSkip: nat, rxCount: nat, ghost c: Call, ghost txCount: nat, ghost sent: seq<byte>, ghost got: seq<byte>)
      returns (rxSkip': nat, rxCount': nat, rxPos': nat, ghost got': seq<byte>)
    requires Transfer(c, hw.hw, txCount, rxSkip, rxCount, sent, got) && Buffers(c, txbuf, rxbuf, txPos, rxPos, rxCount, got)
    requires txPos == c.count - txCount && hw.hw.rx != []
    modifies hw, rxbuf
    ensures Transfer(c, hw.hw, txCount, rxSkip', rxCount', sent, got')
    ensures Buffers(c, txbuf, rxbuf, txPos, rxPos', rxCount', got')
    ensures hw.hw.InFlight() < old(hw.hw).InFlight() && hw.log == old(hw.log) + [DataRead]
  {
    var rxByte := ReadByte(hw, c, txCount, rxSkip, rxCount, sent, got);
    got' := got + [rxByte];
    rxPos' := rxPos;
    if rxSkip != 0 {
      if c.clean {
        DataSkip(got, c.skip0, rxByte);
      }
      rxSkip', rxCount' := rxSkip - 1, rxCount;
    } else {
      if c.clean {
        DataAppend(got, c.skip0, rxByte);
      }
      if rxbuf != null {
        if rxPos < rxbuf.Length {
          ghost var cur := rxbuf[..];
          Store(rxbuf, rxPos, rxByte);
          if c.clean {
            UpdateSplit(cur, rxPos, rxByte, Data(got, c.skip0), c.rx0[rxPos..]);
            if txbuf == rxbuf {
              UpdateBelow(cur, rxPos, rxByte, txPos, c.count);
            }
          }
        }
        rxPos' := rxPos + 1;
      }
      rxSkip', rxCount' := 0, SizeDecrement(rxCount);
    }
  }

  /**
   * The read of `dr0` of `flash_put_get`, and what it does to the
   * transfer's bookkeeping once the counters are updated: a byte read while
   * some are still to be skipped is skipped, any other counts off
   * `rxCount`.  In a transfer that started `Ready` a byte to keep is only
   * read while more bytes are expected back than are still to be sent.
   */
  method ReadByte(hw: Ssi, ghost c: Call, ghost txCount: nat, ghost rxSkip: nat, ghost rxCount: nat,
                  ghost sent: seq<byte>, ghost got: seq<byte>)
      returns (b: byte)
    requires Transfer(c, hw.hw, txCount, rxSkip, rxCount, sent, got) && hw.hw.rx != []
    modifies hw
    ensures rxSkip != 0 ==> Transfer(c, hw.hw, txCount, rxSkip - 1, rxCount, sent, got + [b])
    ensures rxSkip == 0 ==> Transfer(c, hw.hw, txCount, 0, SizeDecrement(rxCount), sent, got + [b])
    ensures c.clean && rxSkip == 0 ==> txCount < rxCount
    ensures hw.hw.InFlight() < old(hw.hw).InFlight() && hw.log == old(hw.log) + [DataRead]
  {
    ghost var h0 := hw.hw;
    ghost var seen;
    b, seen := hw.ReadDr0();
    TransferRun(c, h0, seen, txCount, rxSkip, rxCount, sent, got);
    BooksPop(c.h0, seen, sent, got);
    if c.clean {
      CountersPop(seen, c.count, c.skip0, txCount, rxSkip, rxCount, |got|);
    }
  }


  /**
   * One iteration of the loop of `flash_put_get` (fix.c:78-101): read the
   * levels, move bytes, and when none moved check the abort condition.
   * `stop` is the `break` on abort: it is only taken by an iteration that
   * wrote and read nothing and left every counter as it was.  `rounds` are
   * the iterations before this one as their register accesses, logged since
   * `log0`, show them; `rounds'` adds this one.
   */
  method Iteration(hw: Ssi, txbuf: array?<byte>, rxbuf: array?<byte>, txCount: nat, rxSkip: nat, rxCount: nat,
                   txPos: nat, rxPos: nat, ghost c: Call, ghost sent: seq<byte>, ghost got: seq<byte>,
                   ghost log0: seq<Access>, ghost rounds: seq<Round>)
      returns (stop: bool, txCount': nat, rxSkip': nat, rxCount': nat, txPos': nat, rxPos': nat,
               ghost sent': seq<byte>, ghost got': seq<byte>, ghost rounds': seq<Round>)
    requires Transfer(c, hw.hw, txCount, rxSkip, rxCount, sent, got) && Buffers(c, txbuf, rxbuf, txPos, rxPos, rxCount, got)
    requires txPos == c.count - txCount
    requires txCount != 0 || rxSkip != 0 || rxCount != 0
    requires hw.log == log0 + RoundsLog(rounds) && Looped(rounds) && !Stopped(rounds)
    modifies hw, rxbuf
    ensures Transfer(c, hw.hw, txCount', rxSkip', rxCount', sent', got')
    ensures Buffers(c, txbuf, rxbuf, txPos', rxPos', rxCount', got')
    ensures txPos' == c.count - txCount'
    ensures stop ==>
      && hw.hw.abort && hw.hw.written == old(hw.hw.written) && hw.hw.popped == old(hw.hw.popped)
      && txCount' == txCount && rxSkip' == rxSkip && rxCount' == rxCount
      && txPos' == txPos && rxPos' == rxPos && sent' == sent && got' == got
    ensures !stop ==> Shrinks(old(hw.hw), txCount, hw.hw, txCount')
    ensures hw.log == log0 + RoundsLog(rounds') && Looped(rounds') && (stop <==> Stopped(rounds'))
  {
    ghost var h0, l0 := hw.hw, hw.log;
    var txLevel, rxLevel := Levels(hw, c, txCount, rxSkip, rxCount, sent, got);
    ghost var l1 := hw.log;
    ghost var r;
    stop, txCount', rxSkip', rxCount', txPos', rxPos', sent', got', r :=
      Act(hw, txbuf, rxbuf, txLevel, rxLevel, txCount, rxSkip, rxCount, txPos, rxPos, c, sent, got, h0);
    RoundLogged(l0, l1, hw.log, r);
    RoundsLogged(log0, rounds, r, hw.log);
    rounds' := rounds + [r];
  }

  /**
   * An iteration after its level reads, which started from `h0`
   * (fix.c:82-100): move bytes, and when none moved check the abort
   * condition.
   */
  method Act(hw: Ssi, txbuf: array?<byte>, rxbuf: array?<byte>, txLevel: nat, rxLevel: nat,
             txCount: nat, rxSkip: nat, rxCount: nat, txPos: nat, rxPos: nat,
             ghost c: Call, ghost sent: seq<byte>, ghost got: seq<byte>, ghost h0: Hw)
      returns (stop: bool, txCount': nat, rxSkip': nat, rxCount': nat, txPos': nat, rxPos': nat,
               ghost sent': seq<byte>, ghost got': seq<byte>, ghost r: Round)
    requires Transfer(c, hw.hw, txCount, rxSkip, rxCount, sent, got) && Buffers(c, txbuf, rxbuf, txPos, rxPos, rxCount, got)
    requires txPos == c.count - txCount
    requires hw.hw.InFlight() <= txLevel + rxLevel + InnerDepth && rxLevel == |hw.hw.rx|
    requires RankLe(h0, hw.hw)
    requires c.clean && rxLevel == 0 && (txCount == 0 || txLevel >= MaxInFlight) ==> RankLt(h0, hw.hw)
    modifies hw, rxbuf
    ensures Transfer(c, hw.hw, txCount', rxSkip', rxCount', sent', got')
    ensures Buffers(c, txbuf, rxbuf, txPos', rxPos', rxCount', got')
    ensures txPos' == c.count - txCount'
    ensures stop ==>
      && hw.hw.abort && hw.hw.written == old(hw.hw.written) && hw.hw.popped == old(hw.hw.popped)
      && txCount' == txCount && rxSkip' == rxSkip && rxCount' == rxCount
      && txPos' == txPos && rxPos' == rxPos && sent' == sent && got' == got
    ensures !stop ==> Shrinks(h0, txCount, hw.hw, txCount')
    ensures hw.log == old(hw.log) + ActLog(r) && (stop <==> r == Checked(true)) && (r.Moved? ==> r.wrote || r.read)
  {
    ghost var h1 := hw.hw;
    var moved;
    moved, txCount', rxSkip', rxCount', txPos', rxPos', sent', got' :=
      Move(hw, txbuf, rxbuf, txLevel, rxLevel, txCount, rxSkip, rxCount, txPos, rxPos, c, sent, got);
    stop := false;
    if !moved {
      var aborted := Stalled(hw, c, txCount', rxSkip', rxCount', sent', got');
      r := Checked(aborted);
      if aborted {
        stop := true;
      } else {
        RankChain(h0, h1, hw.hw);
      }
    } else {
      r := Moved(txCount' < txCount, rxLevel != 0);
      assert h1.InFlight() <= h0.InFlight();
    }
  }

  /** The abort check of an iteration that moved no byte (fix.c:98-100). */
  method Stalled(hw: Ssi, ghost c: Call, ghost txCount: nat, ghost rxSkip: nat, ghost rxCount: nat,
                 ghost sent: seq<byte>, ghost got: seq<byte>)
      returns (aborted: bool)
    requires Transfer(c, hw.hw, txCount, rxSkip, rxCount, sent, got)
    modifies hw
    ensures Transfer(c, hw.hw, txCount, rxSkip, rxCount, sent, got)
    ensures aborted == hw.hw.abort && (!c.clean ==> aborted)
    ensures hw.hw.written == old(hw.hw.written) && hw.hw.popped == old(hw.hw.popped)
    ensures RankLe(old(hw.hw), hw.hw) && hw.log == old(hw.log) + [AbortRead(aborted)]
  {
    ghost var before := hw.hw;
    aborted := WasAborted(hw);
    TransferRun(c, before, hw.hw, txCount, rxSkip, rxCount, sent, got);
  }

  /**
   * The body of the loop of `flash_put_get` after the level reads
   * (fix.c:82-97): write a byte if there is one to send and room for it,
   * read a byte if the receive level said one was there.  `moved` is
   * `did_something`; the state is untouched when it is false.
   */
  method Move(hw: Ssi, txbuf: array?<byte>, rxbuf: array?<byte>, txLevel: nat, rxLevel: nat,
              txCount: nat, rxSkip: nat, rxCount: nat, txPos: nat, rxPos: nat,
              ghost c: Call, ghost sent: seq<byte>, ghost got: seq<byte>)
      returns (moved: bool, txCount': nat, rxSkip': nat, rxCount': nat, txPos': nat, rxPos': nat,
               ghost sent': seq<byte>, ghost got': seq<byte>)
    requires Transfer(c, hw.hw, txCount, rxSkip, rxCount, sent, got) && Buffers(c, txbuf, rxbuf, txPos, rxPos, rxCount, got)
    requires txPos == c.count - txCount
    requires hw.hw.InFlight() <= txLevel + rxLevel + InnerDepth && rxLevel == |hw.hw.rx|
    modifies hw, rxbuf
    ensures Transfer(c, hw.hw, txCount', rxSkip', rxCount', sent', got')
    ensures Buffers(c, txbuf, rxbuf, txPos', rxPos', rxCount', got')
    ensures txPos' == c.count - txCount'
    ensures moved == (txCount' < txCount || rxLevel != 0)
    ensures hw.log == old(hw.log) + (if moved then ActLog(Moved(txCount' < txCount, rxLevel != 0)) else [])
    ensures moved ==> 2 * txCount' + hw.hw.InFlight() < 2 * txCount + old(hw.hw).InFlight()
    ensures !moved ==>
      && hw.hw == old(hw.hw) && rxLevel == 0 && (txCount == 0 || txLevel >= MaxInFlight)
      && txCount' == txCount && rxSkip' == rxSkip && rxCount' == rxCount
      && txPos' == txPos && rxPos' == rxPos && sent' == sent && got' == got
  {
    txCount', rxSkip', rxCount', txPos', rxPos', sent', got' := txCount, rxSkip, rxCount, txPos, rxPos, sent, got;
    moved := false;
    ghost var l0 := hw.log;
    if txCount' != 0 && txLevel + rxLevel < MaxInFlight {
      ghost var b := Put(hw, txbuf, rxbuf, txPos', rxPos', c, txCount', rxSkip', rxCount', sent', got');
      sent' := sent' + [b];
      txPos' := txPos' + 1;
      txCount' := txCount' - 1;
      moved := true;
    }
    ghost var l1 := hw.log;
    if rxLevel != 0 {
      rxSkip', rxCount', rxPos', got' := Get(hw, txbuf, rxbuf, txPos', rxPos', rxSkip', rxCount', c, txCount', sent', got');
      moved := true;
    }
    MovedLog(l0, l1, hw.log, txCount' < txCount, rxLevel != 0);
  }

  /**
   * The loop of `flash_put_get` (fix.c:78-101), run until all three counters
   * are zero or an idle iteration sees the abort condition.  `rounds` are
   * its iterations as the register accesses show them: the loop is left
   * early exactly when the last one wrote and read nothing and read the
   * abort condition set.
   */
  method Exchange(hw: Ssi, txbuf: array?<byte>, rxbuf: array?<byte>, count: nat, rxSkip0: nat, ghost c: Call)
      returns (ghost txLeft: nat, ghost skipLeft: nat, ghost rxLeft: nat, ghost txPos': nat, ghost rxPos': nat,
               ghost sent: seq<byte>, ghost got: seq<byte>, ghost rounds: seq<Round>)
    requires c.count == count && c.skip0 == rxSkip0
    requires Transfer(c, hw.hw, count, rxSkip0, count, [], []) && Buffers(c, txbuf, rxbuf, 0, 0, count, [])
    modifies hw, rxbuf
    ensures Transfer(c, hw.hw, txLeft, skipLeft, rxLeft, sent, got) && Buffers(c, txbuf, rxbuf, txPos', rxPos', rxLeft, got)
    ensures (txLeft == 0 && skipLeft == 0 && rxLeft == 0) || hw.hw.abort
    ensures hw.log == old(hw.log) + RoundsLog(rounds) && Looped(rounds)
    ensures (txLeft == 0 && skipLeft == 0 && rxLeft == 0) <==> !Stopped(rounds)
  {
    var txCount: nat, rxSkip: nat, rxCount: nat := count, rxSkip0, count;
    var txPos: nat, rxPos: nat := 0, 0;
    sent, got, rounds := [], [], [];
    ghost var log0 := hw.log;
    while txCount != 0 || rxSkip != 0 || rxCount != 0
      invariant Transfer(c, hw.hw, txCount, rxSkip, rxCount, sent, got)
      invariant Buffers(c, txbuf, rxbuf, txPos, rxPos, rxCount, got)
      invariant txPos == count - txCount
      invariant hw.log == log0 + RoundsLog(rounds) && Looped(rounds) && !Stopped(rounds)
      decreases 2 * txCount + hw.hw.InFlight(), hw.hw.Pending(), hw.hw.stall
    {
      var stop;
      stop, txCount, rxSkip, rxCount, txPos, rxPos, sent, got, rounds :=
        Iteration(hw, txbuf, rxbuf, txCount, rxSkip, rxCount, txPos, rxPos, c, sent, got, log0, rounds);
      if stop {
        break;
      }
    }
    txLeft, skipLeft, rxLeft, txPos', rxPos' := txCount, rxSkip, rxCount, txPos, rxPos;
  }

  /** A write to the receive buffer: `*rx++ = rxbyte` of fix.c:94. */
  method Store(buf: array<byte>, i: nat, b: byte)
    requires i < buf.Length
    modifies buf
    ensures buf[..] == old(buf[..])[i := b]
  {
    buf[i] := b;
  }

  /**
   * `flash_put_get` (fix.c:70-103).  Writes `count` bytes of `txbuf` (zeros
   * when it is null) to `dr0` while reading back `rxSkip0 + count` bytes, the
   * first `rxSkip0` discarded and the rest stored to `rxbuf` (dropped when it
   * is null); never leaves more bytes in flight after a write than the
   * receive FIFO holds; leaves the loop early only on an iteration that
   * moved no byte and saw the abort condition; raises chip select at the end.
   *
   * `sent` and `got` are the bytes written to and read from `dr0`, `ended`
   * the state when the loop ended, `rounds` its iterations as the register
   * accesses show them, `done` whether all three counters reached zero.  A
   * transfer that does not start `Ready` is only specified when the abort
   * condition is already raised.
   */
  method PutGet(hw: Ssi, txbuf: array?<byte>, rxbuf: array?<byte>, count: nat, rxSkip0: nat)
      returns (ghost done: bool, ghost sent: seq<byte>, ghost got: seq<byte>, ghost ended: Hw, ghost rounds: seq<Round>)
    requires hw.Valid()
    requires count <= SizeMax && rxSkip0 <= SizeMax
    requires txbuf != null ==> count <= txbuf.Length
    requires rxbuf != null ==> count <= rxbuf.Length
    requires hw.hw.abort || Ready(hw.hw, rxSkip0)
    modifies hw, rxbuf
    ensures hw.Valid()
    ensures done || ended.abort
    ensures hw.log == old(hw.log) + RoundsLog(rounds) + CsForceLog(High) && Looped(rounds) && (done <==> !Stopped(rounds))
    ensures Books(old(hw.hw), ended, sent, got) && |sent| <= count
    ensures old(Ready(hw.hw, rxSkip0)) ==> hw.hw.highWater <= FifoDepth
    ensures hw.hw.cs == High && hw.hw.ssCtrl == WithOutover(old(hw.hw.ssCtrl), High)
    ensures Kept(ended, hw.hw)
    ensures ended.Quiet() ==>
      Forced(ended, hw.hw, High)
    ensures old(Ready(hw.hw, rxSkip0)) ==>
      !ended.fault && sent == old(Payload(txbuf, count))[..|sent|] && |got| <= rxSkip0 + count
    ensures old(Ready(hw.hw, rxSkip0)) && rxbuf != null ==>
      var d := Data(got, rxSkip0); |d| <= count && rxbuf[..|d|] == d && rxbuf[|d|..] == old(rxbuf[|d|..])
    ensures old(Ready(hw.hw, rxSkip0)) && done ==>
      && ended.Quiet() && ended.rx == [] && |sent| == count && |got| == rxSkip0 + count
      && ended.mosi == old(hw.hw.mosi) + old(hw.hw.tx) + sent
  {
    ghost var c := Call(hw.hw, Ready(hw.hw, rxSkip0), count, rxSkip0, Payload(txbuf, count),
                        if rxbuf == null then [] else rxbuf[..]);
    TransferStart(c, txbuf, rxbuf);
    ghost var txLeft, skipLeft, rxLeft, txPos, rxPos;
    txLeft, skipLeft, rxLeft, txPos, rxPos, sent, got, rounds := Exchange(hw, txbuf, rxbuf, count, rxSkip0, c);
    done := txLeft == 0 && skipLeft == 0 && rxLeft == 0;
    ended := hw.hw;
    TransferEnd(c, ended, txbuf, rxbuf, txPos, rxPos, txLeft, skipLeft, rxLeft, sent, got);
    CsForce(hw, High);
  }

  // ---------------------------------------------------------------------------
  // Commands

  /** The first two statements of `flash_do_cmd` (fix.c:109-110): select the flash, write the opcode. */
  method Open(hw: Ssi, cmd: byte)
    requires hw.Valid() && (hw.hw.abort || Idle(hw.hw))
    modifies hw
    ensures hw.Valid() && (hw.hw.abort || Ready(hw.hw, 1))
    ensures old(hw.hw.abort) ==> hw.hw.abort
    ensures old(Idle(hw.hw)) ==> Opened(old(hw.hw), hw.hw, cmd)
    ensures hw.log == old(hw.log) + CsForceLog(Low) + [DataWrite]
  {
    ghost var h0 := hw.hw;
    CsForce(hw, Low);
    ghost var h1 := hw.hw;
    ghost var seen := hw.WriteDr0(cmd);
    if Idle(h0) {
      IdleRun(h1, seen);
      OpenedReady(h0, hw.hw, cmd);
    }
  }

  /**
   * `flash_do_cmd` (fix.c:108-112): selects the flash, writes the opcode and
   * runs `flash_put_get` with the opcode's echo as the one byte to skip.
   * `got` is every byte read back, the echo first.  Unless the abort
   * condition is raised by the end, the command started and ended `Idle`,
   * the flash saw exactly the opcode and the payload between a falling and a
   * rising edge of chip select, and the `count` data bytes are in `rx`.
   * From `Idle`, no write left more bytes in flight than the receive FIFO
   * holds, whether or not the abort condition was raised.  `rounds` are the
   * iterations of the transfer loop; a loop left by its `break` leaves the
   * abort condition raised.
   */
  method DoCmd(hw: Ssi, cmd: byte, txbuf: array?<byte>, rxbuf: array?<byte>, count: nat)
      returns (ghost got: seq<byte>, ghost rounds: seq<Round>)
    requires hw.Valid() && (hw.hw.abort || Idle(hw.hw))
    requires count <= SizeMax
    requires txbuf != null ==> count <= txbuf.Length
    requires rxbuf != null ==> count <= rxbuf.Length
    modifies hw, rxbuf
    ensures hw.hw.cs == High && Step(old(hw.hw), hw.hw, CmdFrame(cmd, old(Payload(txbuf, count))))
    ensures !hw.hw.abort ==> Ran(old(hw.hw), hw.hw, cmd, old(Payload(txbuf, count)), got)
    ensures !hw.hw.abort && rxbuf != null ==> rxbuf[..count] == got[1..] && rxbuf[count..] == old(rxbuf[count..])
    ensures old(Idle(hw.hw)) ==> hw.hw.highWater <= FifoDepth
    ensures hw.log == old(hw.log) + CmdLog(rounds) && Looped(rounds) && (Stopped(rounds) ==> hw.hw.abort)
  {
    ghost var h0, payload, l0 := hw.hw, Payload(txbuf, count), hw.log;
    ghost var rx0 := if rxbuf == null then [] else rxbuf[..];
    Open(hw, cmd);
    ghost var h2, l2 := hw.hw, hw.log;
    if Idle(h0) {
      OpenedReady(h0, h2, cmd);
    }
    assert payload == Payload(txbuf, count);
    ghost var done, sent, ended;
    done, sent, got, ended, rounds := PutGet(hw, txbuf, rxbuf, count, 1);
    CmdLogged(l0, l2, hw.log, rounds);
    if !hw.hw.abort {
      CmdDone(h0, h2, ended, hw.hw, done, cmd, payload, sent, got);
      if rxbuf != null {
        assert Data(got, 1) == got[1..] && |got[1..]| == count;
        assert rxbuf[..count] == got[1..] && rxbuf[count..] == rx0[count..];
      }
    }
  }

  /**
   * `flash_wait_ready` (fix.c:126-131): sends READ_STATUS commands until the
   * busy bit of the answer is clear, or until it is set and the abort
   * condition is raised.  `stats` are the status bytes read.  At least one
   * poll is sent, every poll but the last read busy, and a last poll that
   * read busy was followed by the abort condition; with the abort condition
   * raised on entry exactly one poll is sent.  `cmds` are the transfer loops
   * of the polls: the register accesses are one READ_STATUS command per
   * poll, each followed, when its answer read busy, by an abort check that
   * read clear, except that the last poll's check read the condition set;
   * only the last poll's transfer loop may have been left by its `break`.
   * While the abort condition stays clear the flash was polled once per
   * busy report plus once more, the last poll reported ready, and the flash
   * is idle at the end.
   */
  method WaitReady(hw: Ssi) returns (ghost stats: seq<byte>, ghost cmds: seq<seq<Round>>)
    requires hw.Valid() && (hw.hw.abort || Idle(hw.hw))
    modifies hw
    ensures Step(old(hw.hw), hw.hw, Polls(|stats|)) && |stats| >= 1
    ensures forall i :: 0 <= i < |stats| - 1 ==> Busy(stats[i])
    ensures Busy(stats[|stats| - 1]) ==> hw.hw.abort
    ensures old(hw.hw.abort) ==> |stats| == 1
    ensures |cmds| == |stats| && hw.log == old(hw.log) + WaitLog(cmds, stats)
    ensures forall i :: 0 <= i < |cmds| ==> Looped(cmds[i]) && (Stopped(cmds[i]) ==> i == |cmds| - 1)
    ensures !hw.hw.abort ==>
      && |stats| == Max(old(hw.hw.busyPolls), 1) && hw.hw.busyPolls == 0
      && (forall i :: 0 <= i < |stats| - 1 ==> Busy(stats[i])) && !Busy(stats[|stats| - 1])
  {
    ghost var h0 := hw.hw;
    var stat := new byte[1];
    ghost var log0 := hw.log;
    stats, cmds := [], [];
    var again := true;
    while again
      invariant Waiting(h0, hw.hw, stats, again) && |cmds| == |stats|
      invariant again ==> hw.log == log0 + PollsLog(cmds, stats)
      invariant !again ==> hw.log == log0 + WaitLog(cmds, stats)
      invariant Transfers(cmds, again)
      decreases again, hw.hw.busyPolls
    {
      ghost var s;
      again, s, cmds := Poll(hw, stat, h0, stats, log0, cmds);
      stats := stats + [s];
    }
  }

  /**
   * The progress of `flash_wait_ready` from `h0` to `h`, after the polls that
   * read `stats`, with `again` telling whether it polls once more.
   */
  ghost predicate Waiting(h0: Hw, h: Hw, stats: seq<byte>, again: bool) {
    && Step(h0, h, Polls(|stats|))
    && (!again ==> stats != [])
    && (forall i :: 0 <= i < |stats| - 1 ==> Busy(stats[i]))
    && (again ==> stats == [] || Busy(stats[|stats| - 1]))
    && (again && stats != [] ==> !h.abort)
    && (!again && stats != [] && Busy(stats[|stats| - 1]) ==> h.abort)
    && (h0.abort ==> |stats| <= 1 && (again <==> stats == []))
    && (!h.abort ==> Polling(h0.busyPolls, h.busyPolls, stats, again))
  }

  /**
   * One round of the loop of `flash_wait_ready` (fix.c:128-130): a
   * READ_STATUS command into `stat`, then, if the answer says busy, the
   * abort check.  `again` is whether the loop goes round once more and `s`
   * the answer.  `cmds` are the iterations of the transfer loops of the
   * earlier polls, logged since `log0`, and `cmds'` adds this poll's; the
   * abort check, when there is one, read the condition set exactly when the
   * loop ends here.
   */
  method Poll(hw: Ssi, stat: array<byte>, ghost h0: Hw, ghost stats: seq<byte>,
              ghost log0: seq<Access>, ghost cmds: seq<seq<Round>>)
      returns (again: bool, ghost s: byte, ghost cmds': seq<seq<Round>>)
    requires Waiting(h0, hw.hw, stats, true) && stat.Length == 1
    requires |cmds| == |stats| && hw.log == log0 + PollsLog(cmds, stats) && Transfers(cmds, true)
    modifies hw, stat
    ensures Waiting(h0, hw.hw, stats + [s], again)
    ensures again ==> !hw.hw.abort && hw.hw.busyPolls < old(hw.hw.busyPolls)
    ensures |cmds'| == |stats| + 1 && Transfers(cmds', again)
    ensures again ==> hw.log == log0 + PollsLog(cmds', stats + [s])
    ensures !again ==> hw.log == log0 + WaitLog(cmds', stats + [s])
  {
    ghost var h1, l1 := hw.hw, hw.log;
    assert Payload(null, 1) == [0];
    ghost var got, rounds;
    got, rounds := DoCmd(hw, ReadStatus, null, stat, 1);
    ghost var h2, l2 := hw.hw, hw.log;
    var answer := stat[0];
    s := answer;
    assert !h2.abort ==> Ran(h1, h2, ReadStatus, [0], got) && got[1] == s by {
      if !h2.abort {
        assert stat[..1] == got[1..];
      }
    }
    again := Busy(answer);
    if again {
      var aborted := WasAborted(hw);
      again := !aborted;
    }
    Polled(h0, h1, h2, hw.hw, stats, s, got, again);
    PollAppended(log0, cmds, stats, rounds, s, again, l1, l2, hw.log);
    cmds' := cmds + [rounds];
  }

  /**
   * One round of `flash_wait_ready` on values: from `h1` a READ_STATUS
   * command that read back `got` ends in `h2`, its answer `s`; when `s`
   * reads busy the abort check follows, ending in `h3`.
   */
  lemma Polled(h0: Hw, h1: Hw, h2: Hw, h3: Hw, stats: seq<byte>, s: byte, got: seq<byte>, again: bool)
    requires Waiting(h0, h1, stats, true)
    requires Step(h1, h2, CmdFrame(ReadStatus, [0]))
    requires !h2.abort ==> Ran(h1, h2, ReadStatus, [0], got) && got[1] == s
    requires Busy(s) ==> Advanced(h2, h3) && (Idle(h2) ==> h3 == h2.(stall := h3.stall, abort := h3.abort)) && again == !h3.abort
    requires !Busy(s) ==> h3 == h2 && !again
    ensures Waiting(h0, h3, stats + [s], again)
    ensures again ==> h3.busyPolls < h1.busyPolls
  {
    assert Step(h0, h2, Polls(|stats| + 1)) by {
      StepJoin(h0, h1, h2, Polls(|stats|), CmdFrame(ReadStatus, [0]));
    }
    if !h2.abort {
      PollingStep(h0.busyPolls, h1.busyPolls, h2.busyPolls, stats, s, got);
    }
    if Busy(s) {
      AbortChecked(h0, h2, h3, Polls(|stats| + 1));
    }
  }

  /** The abort check after a busy answer keeps what the polls so far established. */
  lemma AbortChecked(h0: Hw, h2: Hw, h3: Hw, w: seq<WireEvent>)
    requires Step(h0, h2, w) && Advanced(h2, h3) && (Idle(h2) ==> h3 == h2.(stall := h3.stall, abort := h3.abort))
    ensures Step(h0, h3, w) && h3.busyPolls == h2.busyPolls && (h2.abort ==> h3.abort)
  {
  }

  /**
   * `ssi->dr0 = b` as the driver sees it: the byte is logged, chip select is
   * untouched, and from a state with room in the FIFOs the byte is kept;
   * with the flash selected it is queued behind what the flash saw so far.
   */
  method PushByte(hw: Ssi, b: byte)
    requires hw.Valid()
    modifies hw
    ensures hw.Valid() && hw.hw.written == old(hw.hw.written) + [b] && hw.hw.cs == old(hw.hw.cs)
    ensures old(hw.hw.abort) ==> hw.hw.abort
    ensures old(!hw.hw.fault && hw.hw.InFlight() < FifoDepth) ==> !hw.hw.fault && hw.hw.InFlight() == old(hw.hw.InFlight()) + 1
    ensures old(hw.hw.Selected() && !hw.hw.fault && hw.hw.InFlight() < FifoDepth) ==>
      hw.hw.frame + hw.hw.tx == old(hw.hw.frame + hw.hw.tx) + [b]
    ensures hw.log == old(hw.log) + [DataWrite]
  {
    ghost var h := hw.hw;
    ghost var seen := hw.WriteDr0(b);
    Pushed(h, seen, b);
  }

  /**
   * `flash_put_cmd_addr` (fix.c:116-123): selects the flash and writes the
   * word `addr | cmd << 24` to `dr0` one byte at a time, most significant
   * first, leaving chip select low.  From `Idle`, no byte is lost: the four
   * bytes are in flight, in order behind what the flash saw before, and chip
   * select fell before the first of them, so the frame the flash sees
   * consists of exactly these four bytes, whether clocked out or still queued.
   */
  method PutCmdAddr(hw: Ssi, cmd: byte, addr: bv32)
    requires hw.Valid()
    modifies hw
    ensures hw.Valid() && hw.hw.cs == Low && (old(hw.hw.abort) ==> hw.hw.abort)
    ensures hw.hw.written == old(hw.hw.written) + WordBytes(CmdAddrWord(cmd, addr))
    ensures old(Idle(hw.hw)) ==>
      && !hw.hw.fault && hw.hw.InFlight() == 4
      && hw.hw.mosi + hw.hw.tx == old(hw.hw.mosi) + WordBytes(CmdAddrWord(cmd, addr))
      && hw.hw.frame + hw.hw.tx == WordBytes(CmdAddrWord(cmd, addr))
    ensures hw.log == old(hw.log) + CsForceLog(Low) + Writes(4)
  {
    ghost var h0 := hw.hw;
    CsForce(hw, Low);
    assert Idle(h0) ==> hw.hw.frame == [] && hw.hw.tx == [];
    var a := addr | ((cmd as bv32) << 24);
    PutWord(hw, a);
    if Idle(h0) {
      Delivered(h0, hw.hw, WordBytes(a));
    }
  }

  /** The loop of `flash_put_cmd_addr` (fix.c:119-122): the four bytes of `a` to `dr0`, most significant first. */
  method PutWord(hw: Ssi, a: bv32)
    requires hw.Valid()
    modifies hw
    ensures hw.Valid() && hw.hw.cs == old(hw.hw.cs) && (old(hw.hw.abort) ==> hw.hw.abort)
    ensures hw.hw.written == old(hw.hw.written) + WordBytes(a)
    ensures old(!hw.hw.fault && hw.hw.InFlight() + 4 <= FifoDepth) ==>
      !hw.hw.fault && hw.hw.InFlight() == old(hw.hw.InFlight()) + 4
    ensures old(hw.hw.Selected() && !hw.hw.fault && hw.hw.InFlight() + 4 <= FifoDepth) ==>
      hw.hw.frame + hw.hw.tx == old(hw.hw.frame + hw.hw.tx) + WordBytes(a)
    ensures hw.log == old(hw.log) + Writes(4)
  {
    ghost var h0, log0 := hw.hw, hw.log;
    var w := a;
    ghost var sent: seq<byte>, rest := [], WordBytes(a);
    var i := 0;
    while i < 4
      invariant 0 <= i <= 4 && |sent| == i && hw.Valid() && Queued(h0, hw.hw, sent)
      invariant |rest| == 4 - i && Leads(w, rest) && sent + rest == WordBytes(a)
      invariant hw.log == log0 + Writes(i)
    {
      ghost var h := hw.hw;
      PushByte(hw, (w >> 24) as byte);
      NextByte(w, rest);
      QueuedPush(h0, h, hw.hw, sent, rest[0]);
      WritesNext(log0, i, hw.log);
      MoveHead([], sent, rest);
      sent, rest := sent + [rest[0]], rest[1..];
      w := w << 8;
      i := i + 1;
    }
    assert rest == [] && sent == WordBytes(a);
  }

  /**
   * What the writes `sent` of `flash_put_cmd_addr` so far did from `h0` to
   * `h`: they were logged and chip select kept, and from a state with room
   * for four more bytes every one of them is in flight, queued behind what
   * the flash saw when it is selected.
   */
  ghost predicate Queued(h0: Hw, h: Hw, sent: seq<byte>) {
    && h.cs == h0.cs && (h0.abort ==> h.abort) && h.written == h0.written + sent
    && (!h0.fault && h0.InFlight() + 4 <= FifoDepth ==> !h.fault && h.InFlight() == h0.InFlight() + |sent|)
    && (h0.Selected() && !h0.fault && h0.InFlight() + 4 <= FifoDepth ==> h.frame + h.tx == h0.frame + h0.tx + sent)
  }

  /** One more write of `flash_put_cmd_addr`, as `PushByte` promises it. */
  lemma QueuedPush(h0: Hw, h: Hw, h': Hw, sent: seq<byte>, b: byte)
    requires Queued(h0, h, sent) && |sent| < 4
    requires h'.written == h.written + [b] && h'.cs == h.cs && (h.abort ==> h'.abort)
    requires !h.fault && h.InFlight() < FifoDepth ==> !h'.fault && h'.InFlight() == h.InFlight() + 1
    requires h.Selected() && !h.fault && h.InFlight() < FifoDepth ==> h'.frame + h'.tx == h.frame + h.tx + [b]
    ensures Queued(h0, h', sent + [b])
  {
    assert h'.written == h0.written + (sent + [b]);
    if h0.Selected() && !h0.fault && h0.InFlight() + 4 <= FifoDepth {
      assert h'.frame + h'.tx == h0.frame + h0.tx + (sent + [b]);
    }
  }

  /** `n` writes of `dr0`, as the log records them. */
  function Writes(n: nat): seq<Access> {
    if n == 0 then [] else Writes(n - 1) + [DataWrite]
  }

  lemma WritesNext(log0: seq<Access>, i: nat, l: seq<Access>)
    requires l == log0 + Writes(i) + [DataWrite]
    ensures l == log0 + Writes(i + 1)
  {
    Regroup(log0, Writes(i), [DataWrite]);
  }

  /** `flash_enable_write` (fix.c:134-136): a WRITE_ENABLE command with no data. */
  method EnableWrite(hw: Ssi) returns (ghost rounds: seq<Round>)
    requires hw.Valid() && (hw.hw.abort || Idle(hw.hw))
    modifies hw
    ensures Step(old(hw.hw), hw.hw, CmdFrame(WriteEnable, []))
    ensures !hw.hw.abort ==> hw.hw.busyPolls == Decrement(old(hw.hw.busyPolls))
    ensures hw.log == old(hw.log) + CmdLog(rounds)
  {
    ghost var got;
    got, rounds := DoCmd(hw, WriteEnable, null, null, 0);
  }

  /**
   * One step of `erase_flash` (fix.c:160-162, 165-168, 171-174): write
   * enable, the command `op` with `count` bytes of `txbuf`, then polling until
   * the flash is ready.  While the abort condition stays clear the flash is
   * not busy at the end.
   */
  method Operate(hw: Ssi, op: byte, txbuf: array?<byte>, count: nat) returns (ghost polls: nat)
    requires hw.Valid() && (hw.hw.abort || Idle(hw.hw))
    requires count <= SizeMax && (txbuf != null ==> count <= txbuf.Length)
    modifies hw
    ensures Step(old(hw.hw), hw.hw, Operation(WriteEnable, op, Payload(txbuf, count), polls)) && polls >= 1
    ensures !hw.hw.abort ==> hw.hw.busyPolls == 0
  {
    ghost var h0 := hw.hw;
    ghost var enable := EnableWrite(hw);
    ghost var h1 := hw.hw;
    ghost var got, rounds := DoCmd(hw, op, txbuf, null, count);
    StepJoin(h0, h1, hw.hw, CmdFrame(WriteEnable, []), CmdFrame(op, Payload(txbuf, count)));
    ghost var h2 := hw.hw;
    ghost var stats, cmds := WaitReady(hw);
    polls := |stats|;
    StepJoin(h0, h2, hw.hw, CmdFrame(WriteEnable, []) + CmdFrame(op, Payload(txbuf, count)), Polls(polls));
  }

  /**
   * `erase_flash` (fix.c:152-175).  While the abort condition stays clear,
   * the flash sees exactly `EraseTrace`, with at least one status poll after
   * each command, and is not busy at the end.
   */
  method EraseFlash(hw: Ssi) returns (ghost n1: nat, ghost n2: nat, ghost n3: nat, ghost n4: nat)
    requires hw.Valid() && (hw.hw.abort || Idle(hw.hw))
    modifies hw
    ensures Step(old(hw.hw), hw.hw, EraseTrace(n1, n2, n3, n4))
    ensures n1 >= 1 && n2 >= 1 && n3 >= 1 && n4 >= 1
    ensures !hw.hw.abort ==> hw.hw.busyPolls == 0
  {
    ghost var h0 := hw.hw;
    ghost var got, rounds := DoCmd(hw, VolatileSrWriteEnable, null, null, 0);
    var txBuf := new byte[1];
    txBuf[0] := 0x00;
    ghost var h1 := hw.hw;
    got, rounds := DoCmd(hw, WriteSr2, txBuf, null, 1);
    assert Payload(txBuf, 1) == [0];
    StepJoin(h0, h1, hw.hw, CmdFrame(VolatileSrWriteEnable, []), CmdFrame(WriteSr2, [0]));
    ghost var h2 := hw.hw;
    ghost var stats, cmds := WaitReady(hw);
    n1 := |stats|;
    StepJoin(h0, h2, hw.hw, CmdFrame(VolatileSrWriteEnable, []) + CmdFrame(WriteSr2, [0]), Polls(n1));
    ghost var h3 := hw.hw;
    ghost var w := Operation(VolatileSrWriteEnable, WriteSr2, [0], n1);

    n2 := Operate(hw, ChipErase, null, 0);
    StepJoin(h0, h3, hw.hw, w, Operation(WriteEnable, ChipErase, [], n2));
    w := w + Operation(WriteEnable, ChipErase, [], n2);
    ghost var h4 := hw.hw;

    txBuf[0] := 0;
    assert Payload(txBuf, 1) == [0];
    n3 := Operate(hw, WriteSr2, txBuf, 1);
    StepJoin(h0, h4, hw.hw, w, Operation(WriteEnable, WriteSr2, [0], n3));
    w := w + Operation(WriteEnable, WriteSr2, [0], n3);
    ghost var h5 := hw.hw;

    txBuf[0] := 0x20;
    assert Payload(txBuf, 1) == [0x20];
    n4 := Operate(hw, WriteSr3, txBuf, 1);
    StepJoin(h0, h5, hw.hw, w, Operation(WriteEnable, WriteSr3, [0x20], n4));
  }

  /**
   * `read_flash_sr` (fix.c:177-192): reads the three status registers with
   * commands 0x05, 0x35 and 0x15 into the first byte of a two-byte buffer
   * that starts as {0xff, 0xee}, and packs them into the low 24 bits of `sr`,
   * first register highest.  `s1`, `s2` and `s3` are the bytes in the
   * buffer after each command.  While the abort condition stays clear the
   * flash saw the three commands, each with one zero byte, the driver read
   * back six bytes from `dr0`, the second, fourth and sixth being `s1`, `s2`
   * and `s3`, and `s1` carries the busy bit.
   */
  method ReadFlashSr(hw: Ssi) returns (sr: bv32, ghost s1: byte, ghost s2: byte, ghost s3: byte)
    requires hw.Valid() && (hw.hw.abort || Idle(hw.hw))
    modifies hw
    ensures sr < 0x100_0000 && WordBytes(sr) == [0, s1, s2, s3]
    ensures Step(old(hw.hw), hw.hw, CmdFrame(ReadStatus, [0]) + CmdFrame(ReadStatus2, [0]) + CmdFrame(ReadStatus3, [0]))
    ensures !hw.hw.abort ==>
      && Replies(old(hw.hw.popped), hw.hw.popped, [s1, s2, s3])
      && (Busy(s1) <==> Decrement(old(hw.hw.busyPolls)) > 0)
  {
    ghost var h0 := hw.hw;
    var rxbuf := new byte[2];
    rxbuf[0], rxbuf[1] := 0xff, 0xee;
    ghost var g1, g2, g3;
    s1, g1 := ReadRegister(hw, ReadStatus, rxbuf);
    ghost var h1 := hw.hw;
    assert RegisterRead(h0, h1, ReadStatus, s1, g1);
    sr := rxbuf[0] as bv32;
    s2, g2 := ReadRegister(hw, ReadStatus2, rxbuf);
    ghost var h2 := hw.hw;
    assert RegisterRead(h1, h2, ReadStatus2, s2, g2);
    sr := sr << 8;
    sr := sr | rxbuf[0] as bv32;
    s3, g3 := ReadRegister(hw, ReadStatus3, rxbuf);
    assert RegisterRead(h2, hw.hw, ReadStatus3, s3, g3);
    sr := sr << 8;
    sr := sr | rxbuf[0] as bv32;
    assert sr == StatusWord(s1, s2, s3);
    StatusWordBytes(s1, s2, s3);
    RegistersRead(h0, h1, h2, hw.hw, s1, s2, s3, g1, g2, g3);
  }

  /**
   * One register read of `read_flash_sr`: `flash_do_cmd(op, NULL, rxbuf, 1)`.
   * `s` is what `rxbuf[0]` holds afterwards and `got` the bytes read from
   * `dr0`; unless the abort condition is raised, they are the echo of the
   * opcode and `s`, and the second byte of `rxbuf` is untouched.
   */
  method ReadRegister(hw: Ssi, op: byte, rxbuf: array<byte>) returns (ghost s: byte, ghost got: seq<byte>)
    requires hw.Valid() && (hw.hw.abort || Idle(hw.hw)) && !StartsOperation(op) && rxbuf.Length == 2
    modifies hw, rxbuf
    ensures Step(old(hw.hw), hw.hw, CmdFrame(op, [0])) && s == rxbuf[0]
    ensures !hw.hw.abort ==>
      && |got| == 2 && got[1] == s && hw.hw.popped == old(hw.hw.popped) + got && rxbuf[1] == old(rxbuf[1])
      && hw.hw.busyPolls == Decrement(old(hw.hw.busyPolls))
    ensures !hw.hw.abort && op == ReadStatus ==> (Busy(s) <==> hw.hw.busyPolls > 0)
  {
    assert Payload(null, 1) == [0];
    ghost var rounds;
    got, rounds := DoCmd(hw, op, null, rxbuf, 1);
    s := rxbuf[0];
    if !hw.hw.abort {
      assert rxbuf[..1] == got[1..] && rxbuf[1..] == old(rxbuf[1..]);
      if op == ReadStatus {
        AllReportAt(got[1..], hw.hw.busyPolls > 0, 0);
      }
    }
  }

  /**
   * `popped` is `popped0` followed by one two-byte reply per register read,
   * each reply an echo followed by the register's value in `values`.
   */
  ghost predicate Replies(popped0: seq<byte>, popped: seq<byte>, values: seq<byte>) {
    && |popped| == |popped0| + 2 * |values| && popped[..|popped0|] == popped0
    && forall i :: 0 <= i < |values| ==> popped[|popped0| + 2 * i + 1] == values[i]
  }

  /** What `ReadRegister` promises about the hardware, from `h0` to `h`. */
  ghost predicate RegisterRead(h0: Hw, h: Hw, op: byte, s: byte, got: seq<byte>) {
    && Step(h0, h, CmdFrame(op, [0]))
    && (!h.abort ==> |got| == 2 && got[1] == s && h.popped == h0.popped + got && h.busyPolls == Decrement(h0.busyPolls))
    && (!h.abort && op == ReadStatus ==> (Busy(s) <==> h.busyPolls > 0))
  }

  /** The three register reads of `read_flash_sr` in a row. */
  lemma RegistersRead(h0: Hw, h1: Hw, h2: Hw, h3: Hw, s1: byte, s2: byte, s3: byte,
                      g1: seq<byte>, g2: seq<byte>, g3: seq<byte>)
    requires RegisterRead(h0, h1, ReadStatus, s1, g1)
    requires RegisterRead(h1, h2, ReadStatus2, s2, g2)
    requires RegisterRead(h2, h3, ReadStatus3, s3, g3)
    ensures Step(h0, h3, CmdFrame(ReadStatus, [0]) + CmdFrame(ReadStatus2, [0]) + CmdFrame(ReadStatus3, [0]))
    ensures !h3.abort ==>
      && Replies(h0.popped, h3.popped, [s1, s2, s3])
      && (Busy(s1) <==> Decrement(h0.busyPolls) > 0)
  {
    assert Step(h0, h3, CmdFrame(ReadStatus, [0]) + CmdFrame(ReadStatus2, [0]) + CmdFrame(ReadStatus3, [0])) by {
      StepJoin(h0, h1, h2, CmdFrame(ReadStatus, [0]), CmdFrame(ReadStatus2, [0]));
      StepJoin(h0, h2, h3, CmdFrame(ReadStatus, [0]) + CmdFrame(ReadStatus2, [0]), CmdFrame(ReadStatus3, [0]));
    }
    if !h3.abort {
      assert !h1.abort && !h2.abort;
      RepliesJoin(h0.popped, h1.popped, h2.popped, h3.popped, g1, g2, g3, s1, s2, s3);
    }
  }

  /** Three register reads in a row, each popping an echo and a value, leave three replies. */
  lemma RepliesJoin(p0: seq<byte>, p1: seq<byte>, p2: seq<byte>, p3: seq<byte>,
                    g1: seq<byte>, g2: seq<byte>, g3: seq<byte>, s1: byte, s2: byte, s3: byte)
    requires p1 == p0 + g1 && p2 == p1 + g2 && p3 == p2 + g3
    requires |g1| == 2 && |g2| == 2 && |g3| == 2 && g1[1] == s1 && g2[1] == s2 && g3[1] == s3
    ensures Replies(p0, p3, [s1, s2, s3])
  {
    assert p3 == p0 + g1 + g2 + g3;
  }
}

=== FILE: flash_defs.dfy ===
/**
 * Values shared by the SSI register model and the flash driver: bytes, the
 * flash command set, the chip-select override field of the QSPI SS pad control
 * register, the events seen on the SPI wire, and the pure byte packing used by
 * `flash_put_cmd_addr` and `read_flash_sr` in fix.c.
 */
module FlashDefs {

  /** One byte as it travels through the SSI data register `dr0`. */
  type byte = bv8

  /** Depth of the SSI transmit and receive FIFOs. */
  const FifoDepth: nat := 16

  /** `max_in_flight` of `flash_put_get`: two bytes of slack for data held inside the SSI. */
  const MaxInFlight: nat := FifoDepth - 2

  /**
   * How many received bytes the SSI can hold between shifting them in and
   * landing them in its receive FIFO; neither FIFO level counts them.
   */
  const InnerDepth: nat := 2

  /** Largest `size_t` value on the 32-bit target; `--rx_count` wraps to it. */
  const SizeMax: nat := 0xFFFF_FFFF

  /** `--n` on a `size_t`: zero wraps around to `SizeMax`. */
  function SizeDecrement(n: nat): (r: nat)
    ensures n > 0 ==> r == n - 1
  {
    if n == 0 then SizeMax else n - 1
  }

  // Flash command opcodes (fix.c:18-30).
  const PageProgram: byte := 0x02
  const ReadData: byte := 0x03
  const ReadStatus: byte := 0x05
  const WriteEnable: byte := 0x06
  const SectorErase: byte := 0x20
  const ReadSfdp: byte := 0x5a
  const ReadJedecId: byte := 0x9f
  const ChipErase: byte := 0xc7
  const VolatileSrWriteEnable: byte := 0x50
  const WriteSr1: byte := 0x01
  const WriteSr2: byte := 0x31
  const WriteSr3: byte := 0x11
  // Ad hoc opcodes used only by `read_flash_sr`.
  const ReadStatus2: byte := 0x35
  const ReadStatus3: byte := 0x15

  /** Commands after which the flash starts an internal operation and reports busy. */
  predicate StartsOperation(op: byte) {
    op in {PageProgram, SectorErase, ChipErase, WriteSr1, WriteSr2, WriteSr3}
  }

  /** Busy bit (bit 0) of a status register byte. */
  predicate Busy(status: byte) {
    status & 1 == 1
  }

  /** `outover_t` of fix.c:32-37: what the pad drives on the chip-select line. */
  datatype Outover = Normal | Invert | Low | High

  function OutoverCode(o: Outover): (c: bv32)
    ensures c < 4
  {
    match o
    case Normal => 0
    case Invert => 1
    case Low => 2
    case High => 3
  }

  /** Position and mask of the two-bit OUTOVER field in the SS pad control register. */
  const OutoverLsb: bv32 := 8
  const OutoverBits: bv32 := 0x300

  /** The override a value of the OUTOVER field selects. */
  function DecodeOutover(code: bv32): Outover {
    if code == 0 then Normal else if code == 1 then Invert else if code == 2 then Low else High
  }

  lemma DecodeCode(o: Outover)
    ensures DecodeOutover(OutoverCode(o)) == o
  {
  }

  /** The override currently selected by a value of the SS pad control register. */
  function OutoverOf(reg: bv32): Outover {
    DecodeOutover((reg & OutoverBits) >> OutoverLsb)
  }

  lemma FieldUpdate(reg: bv32, code: bv32)
    requires code < 4
    ensures (((reg & !OutoverBits) | (code << OutoverLsb)) & OutoverBits) >> OutoverLsb == code
    ensures ((reg & !OutoverBits) | (code << OutoverLsb)) & !OutoverBits == reg & !OutoverBits
  {
  }

  /**
   * The read-modify-write of `flash_cs_force` (fix.c:52-53): clear the OUTOVER
   * field, then or in the new override.  The field ends up holding `over` and
   * every other bit of the register is kept.
   */
  function WithOutover(reg: bv32, over: Outover): (r: bv32)
    ensures OutoverOf(r) == over
    ensures r & !OutoverBits == reg & !OutoverBits
  {
    FieldUpdate(reg, OutoverCode(over));
    DecodeCode(over);
    (reg & !OutoverBits) | (OutoverCode(over) << OutoverLsb)
  }

  /** An event on the SPI wire: a chip-select override written, or a byte clocked out while selected. */
  datatype WireEvent = Cs(over: Outover) | Out(b: byte)

  /** The wire events of clocking out `s` while the flash is selected. */
  function Outs(s: seq<byte>): seq<WireEvent> {
    seq(|s|, i requires 0 <= i < |s| => Out(s[i]))
  }

  lemma OutsAppend(a: seq<byte>, b: seq<byte>)
    ensures Outs(a + b) == Outs(a) + Outs(b)
  {
  }

  /** `count` zero bytes: what `flash_put_get` sends when `tx` is NULL. */
  function Zeros(count: nat): seq<byte> {
    seq(count, i => 0)
  }

  /** The bytes `flash_put_get` sends: `tx[0..count)`, or zeros when `tx` is NULL. */
  function Payload(txbuf: array?<byte>, count: nat): (p: seq<byte>)
    reads txbuf
    requires txbuf != null ==> count <= txbuf.Length
    ensures |p| == count
  {
    if txbuf == null then Zeros(count) else txbuf[..count]
  }

  /** The four bytes of a 32-bit word, most significant first. */
  function WordBytes(w: bv32): (r: seq<byte>)
    ensures |r| == 4
  {
    [(w >> 24) as byte, ((w >> 16) & 0xFF) as byte, ((w >> 8) & 0xFF) as byte, (w & 0xFF) as byte]
  }

  /** The 32-bit word whose big-endian bytes are `s`. */
  function WordOf(s: seq<byte>): bv32
    requires |s| == 4
  {
    ((s[0] as bv32) << 24) | ((s[1] as bv32) << 16) | ((s[2] as bv32) << 8) | (s[3] as bv32)
  }

  /** Splitting a word into bytes loses nothing: packing them again gives the word back. */
  lemma WordBytesRoundTrip(w: bv32)
    ensures WordOf(WordBytes(w)) == w
  {
  }

  /** The word `flash_put_cmd_addr` streams out: `addr | cmd << 24` (fix.c:118). */
  function CmdAddrWord(cmd: byte, addr: bv32): bv32 {
    addr | ((cmd as bv32) << 24)
  }

  /**
   * For a 24-bit address, the four bytes sent by `flash_put_cmd_addr` are the
   * opcode followed by the address bits 23:16, 15:8 and 7:0: the big-endian
   * encoding of the word with the opcode in the top byte and the address below.
   */
  lemma CmdAddrFraming(cmd: byte, addr: bv32)
    requires addr < 0x100_0000
    ensures WordBytes(CmdAddrWord(cmd, addr))
         == [cmd, ((addr >> 16) & 0xFF) as byte, ((addr >> 8) & 0xFF) as byte, (addr & 0xFF) as byte]
    ensures CmdAddrWord(cmd, addr) == ((cmd as bv32) << 24) + addr
  {
    var w := CmdAddrWord(cmd, addr);
    TopByte(cmd, addr);
    LowBits(cmd, addr);
    DisjointOr(cmd, addr);
    LowBytes(w);
  }

  lemma TopByte(cmd: byte, addr: bv32)
    requires addr < 0x100_0000
    ensures CmdAddrWord(cmd, addr) >> 24 == cmd as bv32
  {
  }

  lemma LowBits(cmd: byte, addr: bv32)
    requires addr < 0x100_0000
    ensures CmdAddrWord(cmd, addr) & 0xFF_FFFF == addr
  {
  }

  lemma DisjointOr(cmd: byte, addr: bv32)
    requires addr < 0x100_0000
    ensures CmdAddrWord(cmd, addr) == ((cmd as bv32) << 24) + addr
  {
  }

  lemma LowBytes(w: bv32)
    ensures (w >> 16) & 0xFF == ((w & 0xFF_FFFF) >> 16) & 0xFF
    ensures (w >> 8) & 0xFF == ((w & 0xFF_FFFF) >> 8) & 0xFF
    ensures w & 0xFF == (w & 0xFF_FFFF) & 0xFF
  {
  }

  /** Shifting a word left by one byte moves its big-endian bytes up by one. */
  lemma ShiftOutByte(a: bv32)
    ensures WordBytes(a << 8)[..3] == WordBytes(a)[1..]
  {
  }

  /** `rest` are the leading big-endian bytes of `w`. */
  predicate Leads(w: bv32, rest: seq<byte>) {
    |rest| <= 4 && WordBytes(w)[..|rest|] == rest
  }

  /**
   * The loop of `flash_put_cmd_addr`: when `rest` are the leading bytes of
   * `a`, the byte written next is the first of `rest`, and the shifted word
   * leads with the others.
   */
  lemma NextByte(a: bv32, rest: seq<byte>)
    requires rest != [] && Leads(a, rest)
    ensures (a >> 24) as byte == rest[0]
    ensures Leads(a << 8, rest[1..])
  {
    assert WordBytes(a)[0] == rest[0];
    ShiftOutByte(a);
  }

  /**
   * For an address wider than 24 bits the opcode byte is corrupted: bits 31:24
   * of `addr` are or-ed into it.
   */
  lemma CmdAddrWideAddress(cmd: byte, addr: bv32)
    ensures WordBytes(CmdAddrWord(cmd, addr))[0] == cmd | (addr >> 24) as byte
    ensures WordBytes(CmdAddrWord(cmd, addr))[1..] == WordBytes(addr)[1..]
  {
  }

  /**
   * The 24-bit value `read_flash_sr` assembles (fix.c:183-189): the first byte
   * shifted into bits 23:16, the second into 15:8, the third into 7:0.
   */
  function StatusWord(s1: byte, s2: byte, s3: byte): bv32 {
    ((((s1 as bv32) << 8) | (s2 as bv32)) << 8) | (s3 as bv32)
  }

  /** The three status bytes can be read back from the assembled value, and it fits in 24 bits. */
  lemma StatusWordBytes(s1: byte, s2: byte, s3: byte)
    ensures StatusWord(s1, s2, s3) < 0x100_0000
    ensures WordBytes(StatusWord(s1, s2, s3)) == [0, s1, s2, s3]
  {
  }
}

=== FILE: ssi.dfy ===
/**
 * An abstract model of the hardware `flash_put_get` and its helpers talk to:
 * the SSI (synchronous serial interface) with its 16-deep transmit and receive
 * FIFOs and its data register `dr0`, the QSPI pad controls that carry the
 * chip-select override and the abort condition, and the flash chip on the
 * other end of the wire, reduced to what the driver observes of it (its status
 * register's busy bit).
 *
 * The state is the value `Hw`, changed by pure transition functions: `Clock`
 * (the SSI shifts one byte out and one byte in, and holds the byte in),
 * `Land` (a held byte reaches the receive FIFO), `Push` and `Pop` (the driver
 * writes or reads `dr0`) and `WriteCtrl` (the driver writes the SS pad
 * control register).  Up to `InnerDepth` bytes are held inside the SSI,
 * counted by neither FIFO level.  The class `Ssi` is the device as the
 * driver sees it: every register access first lets the hardware run on its
 * own (`Run`), which may clock out a prefix of the transmit FIFO, land held
 * bytes, and raise the abort condition; `log` records each access.
 */
module SsiModel {
  import opened FlashDefs

  function Decrement(n: nat): nat {
    if n == 0 then 0 else n - 1
  }

  function Max(a: nat, b: nat): nat {
    if a < b then b else a
  }

  lemma SliceAppend(a: seq<byte>, x: byte, i: nat, j: nat)
    requires i <= j <= |a|
    ensures (a + [x])[i..j] == a[i..j]
  {
  }

  lemma SliceAppendEnd(a: seq<byte>, x: byte, i: nat)
    requires i <= |a|
    ensures (a + [x])[i..|a| + 1] == a[i..] + [x]
  {
  }

  /** Every byte of `answers` carries the busy bit `busy`. */
  ghost predicate AllReport(answers: seq<byte>, busy: bool) {
    answers == [] || (Busy(answers[0]) == busy && AllReport(answers[1..], busy))
  }

  lemma {:induction false} AllReportAppend(answers: seq<byte>, r: byte, busy: bool)
    requires AllReport(answers, busy) && Busy(r) == busy
    ensures AllReport(answers + [r], busy)
  {
    if answers != [] {
      assert (answers + [r])[1..] == answers[1..] + [r];
      AllReportAppend(answers[1..], r, busy);
    }
  }

  lemma {:induction false} AllReportAt(answers: seq<byte>, busy: bool, k: nat)
    requires AllReport(answers, busy) && k < |answers|
    ensures Busy(answers[k]) == busy
  {
    if k > 0 {
      AllReportAt(answers[1..], busy, k - 1);
    }
  }

  /**
   * Within a READ_STATUS command every byte the flash returns after the
   * opcode is its status register, whose busy bit says whether the flash is
   * still busy: `frame` is the command received so far, its first byte
   * clocked at position `start` of the MISO log `miso`.
   */
  ghost predicate StatusAnswers(miso: seq<byte>, start: nat, frame: seq<byte>, busyPolls: nat)
    requires start + |frame| <= |miso|
  {
    |frame| > 0 && frame[0] == ReadStatus ==> AllReport(miso[start + 1..start + |frame|], busyPolls > 0)
  }

  /**
   * The state of the SSI, the pad controls and the flash, with observation
   * logs.
   *   tx, rx        transmit and receive FIFO contents (`txflr`, `rxflr` are their lengths)
   *   inner         bytes shifted in and held inside the SSI, not yet in the receive FIFO
   *   fault         a byte was lost: written to a full transmit FIFO, landed in
   *                 a full receive FIFO, or read from an empty receive FIFO
   *   ssCtrl        the SS pad control register
   *   cs            the override the chip-select pad applies: the OUTOVER field of `ssCtrl`
   *   abort         the INOVER field of the SD1 pad control: the abort condition
   *   stall         how many more runs the SSI may leave bytes to clock or to land untouched
   *   busyPolls     the flash: how many more selections until one reports ready; each
   *                 falling edge of chip select counts it down, and the flash reports
   *                 busy while it is above zero
   *   frame         the flash: bytes received since chip select last went low
   *   written, popped  bytes the driver wrote to and read from `dr0`
   *   mosi, miso    bytes clocked out and in
   *   wire          what the flash saw: chip-select changes and bytes clocked while selected
   *   frameStart    position in `mosi` of the first byte of `frame`
   *   highWater     the most bytes ever in flight just after a write to `dr0`
   * The fields from `frame` on are observations for the proofs: the driver
   * never reads them.
   */
  datatype Hw = Hw(tx: seq<byte>, rx: seq<byte>, inner: seq<byte>, fault: bool, ssCtrl: bv32, cs: Outover, abort: bool, stall: nat,
                   busyPolls: nat, frame: seq<byte>, written: seq<byte>, popped: seq<byte>,
                   mosi: seq<byte>, miso: seq<byte>, wire: seq<WireEvent>, frameStart: nat, highWater: nat)
  {
    /** Chip select is forced low: the flash is selected. */
    predicate Selected() {
      cs == Low
    }

    /** Bytes written to `dr0` and not yet read back, wherever they are. */
    function InFlight(): nat {
      |tx| + |inner| + |rx|
    }

    /** Steps the SSI has still to take on its own: two per byte to clock out, one per byte to land. */
    function Pending(): nat {
      2 * |tx| + |inner|
    }

    /** Nothing left for the SSI to clock out or to land. */
    predicate Quiet() {
      tx == [] && inner == []
    }

    ghost predicate Valid() {
      FifosValid() && LogsValid() && FrameValid() && StatusValid()
    }

    ghost predicate FifosValid() {
      |tx| <= FifoDepth && |rx| <= FifoDepth && |inner| <= InnerDepth && InFlight() <= highWater
    }

    /** One byte in per byte out; unless a byte was lost, the logs account for every FIFO entry. */
    ghost predicate LogsValid() {
      |mosi| == |miso| && (!fault ==> written == mosi + tx && miso == popped + rx + inner)
    }

    /** The flash's current command is what was clocked out since it was selected. */
    ghost predicate FrameValid() {
      && frameStart + |frame| <= |mosi|
      && frame == mosi[frameStart..frameStart + |frame|]
      && (Selected() ==> frameStart + |frame| == |mosi|)
    }

    ghost predicate StatusValid()
      requires FrameValid() && LogsValid()
    {
      StatusAnswers(miso, frameStart, frame, busyPolls)
    }

    /** Inside a READ_STATUS command. */
    predicate ReportingStatus() {
      Selected() && |frame| > 0 && frame[0] == ReadStatus
    }

    /**
     * What the flash may return while the SSI clocks a byte out: inside a
     * READ_STATUS command its status register, whose bit 0 is the busy bit;
     * otherwise anything at all.
     */
    predicate FlashAnswer(r: byte) {
      ReportingStatus() ==> (Busy(r) <==> busyPolls > 0)
    }

    /**
     * The SSI shifts the byte at the head of the transmit FIFO out and the
     * flash's answer `r` in, and holds `r` until it lands.
     */
    function Clock(r: byte): Hw
      requires tx != []
    {
      this.(tx := tx[1..], mosi := mosi + [tx[0]], miso := miso + [r], inner := inner + [r],
            wire := if Selected() then wire + [Out(tx[0])] else wire,
            frame := if Selected() then frame + [tx[0]] else frame)
    }

    /** The oldest held byte lands in the receive FIFO; it is lost when the FIFO is full. */
    function Land(): Hw
      requires inner != []
    {
      this.(inner := inner[1..],
            rx := if |rx| < FifoDepth then rx + [inner[0]] else rx,
            fault := fault || |rx| >= FifoDepth)
    }

    /** The driver writes `b` to `dr0`; a write to a full transmit FIFO is lost. */
    function Push(b: byte): Hw {
      var tx' := if |tx| < FifoDepth then tx + [b] else tx;
      this.(tx := tx', written := written + [b], fault := fault || |tx| >= FifoDepth,
            highWater := Max(highWater, |tx'| + |inner| + |rx|))
    }

    /** What a read of `dr0` returns: the head of the receive FIFO (zero when it is empty). */
    function Head(): byte {
      if rx != [] then rx[0] else 0
    }

    /** The driver reads `dr0`, which pops the receive FIFO; reading an empty FIFO is a fault. */
    function Pop(): Hw {
      if rx != [] then this.(rx := rx[1..], popped := popped + [rx[0]]) else this.(fault := true)
    }

    /**
     * The driver writes `v` to the SS pad control register.  When chip select
     * goes low the flash starts a new command and comes one poll closer to
     * ready; when it goes high after a program, erase or status-register
     * write command, the flash starts that operation and reports busy for the
     * next `busyFor` selections.
     */
    function WriteCtrl(v: bv32, busyFor: nat): Hw {
      var over := OutoverOf(v);
      var falls := over == Low && !Selected();
      var starts := over != Low && Selected() && frame != [] && StartsOperation(frame[0]);
      this.(ssCtrl := v, cs := over, wire := wire + [Cs(over)],
            frame := if falls then [] else frame,
            frameStart := if falls then |mosi| else frameStart,
            busyPolls := if falls then Decrement(busyPolls) else if starts then busyFor else busyPolls)
    }
  }

  lemma ClockFifos(h: Hw, r: byte)
    requires h.FifosValid() && h.tx != [] && |h.inner| < InnerDepth
    ensures h.Clock(r).FifosValid()
  {
  }

  lemma ClockLogs(h: Hw, r: byte)
    requires h.LogsValid() && h.tx != []
    ensures h.Clock(r).LogsValid()
  {
    var h' := h.Clock(r);
    if !h'.fault {
      assert h.tx == [h.tx[0]] + h.tx[1..];
      assert h'.written == (h.mosi + [h.tx[0]]) + h.tx[1..];
      assert h'.miso == h.popped + h.rx + (h.inner + [r]);
    }
  }

  lemma ClockFrame(h: Hw, r: byte)
    requires h.FrameValid() && h.tx != []
    ensures h.Clock(r).FrameValid()
  {
    if h.Selected() {
      SliceAppendEnd(h.mosi, h.tx[0], h.frameStart);
    } else {
      SliceAppend(h.mosi, h.tx[0], h.frameStart, h.frameStart + |h.frame|);
    }
  }

  /** The status answers stay right when one more byte is clocked, the flash selected or not. */
  lemma StatusAnswersClock(miso: seq<byte>, r: byte, start: nat, frame: seq<byte>, b: byte,
                           selected: bool, busyPolls: nat)
    requires start + |frame| <= |miso| && (selected ==> start + |frame| == |miso|)
    requires StatusAnswers(miso, start, frame, busyPolls)
    requires selected && |frame| > 0 && frame[0] == ReadStatus ==> (Busy(r) <==> busyPolls > 0)
    ensures StatusAnswers(miso + [r], start, if selected then frame + [b] else frame, busyPolls)
  {
    if |frame| > 0 && frame[0] == ReadStatus {
      if selected {
        SliceAppendEnd(miso, r, start + 1);
        assert miso[start + 1..] == miso[start + 1..start + |frame|];
        AllReportAppend(miso[start + 1..start + |frame|], r, busyPolls > 0);
      } else {
        SliceAppend(miso, r, start + 1, start + |frame|);
      }
    } else if selected && frame == [] {
      assert (miso + [r])[start + 1..start + 1] == [];
    }
  }

  lemma ClockStatus(h: Hw, r: byte)
    requires h.FrameValid() && h.LogsValid() && h.StatusValid() && h.tx != [] && h.FlashAnswer(r)
    ensures h.Clock(r).FrameValid() && h.Clock(r).LogsValid() && h.Clock(r).StatusValid()
  {
    ClockFrame(h, r);
    ClockLogs(h, r);
    StatusAnswersClock(h.miso, r, h.frameStart, h.frame, h.tx[0], h.Selected(), h.busyPolls);
  }

  /** Clocking a byte keeps the state consistent. */
  lemma ClockValid(h: Hw, r: byte)
    requires h.Valid() && h.tx != [] && |h.inner| < InnerDepth && h.FlashAnswer(r)
    ensures h.Clock(r).Valid()
  {
    ClockFifos(h, r);
    ClockStatus(h, r);
  }

  /** Landing a held byte keeps the state consistent. */
  lemma LandValid(h: Hw)
    requires h.Valid() && h.inner != []
    ensures h.Land().Valid()
  {
    var h' := h.Land();
    if !h'.fault {
      assert h.inner == [h.inner[0]] + h.inner[1..];
      assert h'.miso == h.popped + (h.rx + [h.inner[0]]) + h.inner[1..];
    }
    assert h'.FrameValid() && h'.StatusValid();
  }

  /** The hardware has clocked out the first `|h0.tx| - |h1.tx|` bytes of the transmit FIFO. */
  ghost predicate TxProgress(h0: Hw, h1: Hw) {
    && |h1.tx| <= |h0.tx|
    && h1.tx == h0.tx[|h0.tx| - |h1.tx|..]
    && h1.mosi == h0.mosi + h0.tx[..|h0.tx| - |h1.tx|]
  }

  /**
   * One byte came in per byte clocked out; held bytes only land in the
   * receive FIFO, and none is lost while the receive FIFO has room for
   * everything that may land.
   */
  ghost predicate RxProgress(h0: Hw, h1: Hw)
    requires |h1.tx| <= |h0.tx|
  {
    var n := |h0.tx| - |h1.tx|;
    && |h1.miso| == |h0.miso| + n && h1.miso[..|h0.miso|] == h0.miso
    && |h0.rx| <= |h1.rx| && h1.rx[..|h0.rx|] == h0.rx
    && |h1.rx| + |h1.inner| <= |h0.rx| + |h0.inner| + n
    && (h0.fault ==> h1.fault)
    && (!h0.fault && |h0.rx| + |h0.inner| + n <= FifoDepth ==> !h1.fault)
  }

  /** While selected, the flash saw the bytes clocked out, in order. */
  ghost predicate WireProgress(h0: Hw, h1: Hw)
    requires |h1.tx| <= |h0.tx|
  {
    var shifted := h0.tx[..|h0.tx| - |h1.tx|];
    && h1.wire == h0.wire + (if h0.Selected() then Outs(shifted) else [])
    && h1.frame == h0.frame + (if h0.Selected() then shifted else [])
  }

  /** What only the driver changes. */
  ghost predicate DriverOwned(h0: Hw, h1: Hw) {
    && h1.ssCtrl == h0.ssCtrl && h1.cs == h0.cs && h1.busyPolls == h0.busyPolls && h1.frameStart == h0.frameStart
    && h1.written == h0.written && h1.popped == h0.popped && h1.highWater == h0.highWater
  }

  /** `h1` is `h0` after the SSI clocked out and landed some bytes. */
  ghost predicate Progress(h0: Hw, h1: Hw) {
    h1.Valid() && TxProgress(h0, h1) && RxProgress(h0, h1) && WireProgress(h0, h1) && DriverOwned(h0, h1)
  }

  /**
   * What the driver may rely on about the hardware running on its own from
   * `h0` to `h1`: some prefix of the transmit FIFO is clocked out, the flash
   * sees it while selected, every byte clocked out brings a byte in, held
   * bytes land, the registers the driver writes keep their values, the abort
   * condition stays set once set, and the SSI can leave work pending
   * untouched only while its stall budget lasts.
   */
  ghost predicate Advanced(h0: Hw, h1: Hw) {
    && Progress(h0, h1)
    && (h1.Pending() == h0.Pending() ==> h1.stall <= h0.stall)
    && (h1.Pending() == h0.Pending() > 0 ==> h1.stall < h0.stall)
    && (h0.abort ==> h1.abort)
  }

  /** A run of the SSI, followed by a new stall budget and the abort condition, is a run of the hardware. */
  lemma Settle(h0: Hw, h: Hw, h1: Hw)
    requires Progress(h0, h) && h1 == h.(stall := h1.stall, abort := h1.abort)
    requires h.Pending() == h0.Pending() ==> h1.stall <= h0.stall
    requires h.Pending() == h0.Pending() > 0 ==> h1.stall < h0.stall
    requires h0.abort ==> h1.abort
    ensures Advanced(h0, h1)
  {
    SettleKeeps(h0, h, h1);
    assert h1.tx == h.tx && h1.inner == h.inner;
  }

  /** The stall budget and the abort condition play no part in a run of the SSI. */
  lemma SettleKeeps(h0: Hw, h: Hw, h': Hw)
    requires Progress(h0, h)
    requires h' == h.(stall := h'.stall, abort := h'.abort)
    ensures Progress(h0, h')
  {
    assert h'.Valid() by {
      assert h'.FifosValid() && h'.LogsValid() && h'.FrameValid();
    }
    assert TxProgress(h0, h') && RxProgress(h0, h') && WireProgress(h0, h') && DriverOwned(h0, h');
  }

  lemma ProgressNone(h: Hw)
    requires h.Valid()
    ensures Progress(h, h)
  {
    assert h.tx[|h.tx| - |h.tx|..] == h.tx;
    assert h.tx[..0] == [];
    assert h.miso[..|h.miso|] == h.miso;
    assert h.rx[..|h.rx|] == h.rx;
  }

  lemma ClockTx(h0: Hw, h: Hw, r: byte)
    requires TxProgress(h0, h) && h.tx != []
    ensures TxProgress(h0, h.Clock(r))
  {
    TxStep(h0.tx, h0.mosi, h.tx, h.mosi);
    var h' := h.Clock(r);
    assert h'.tx == h.tx[1..] && h'.mosi == h.mosi + [h.tx[0]];
  }

  /** Moving the head of the remaining bytes `t` to the sent bytes `m` keeps the split of `t0`. */
  lemma TxStep(t0: seq<byte>, m0: seq<byte>, t: seq<byte>, m: seq<byte>)
    requires |t| <= |t0| && t == t0[|t0| - |t|..] && m == m0 + t0[..|t0| - |t|] && t != []
    ensures t[1..] == t0[|t0| - |t[1..]|..]
    ensures m + [t[0]] == m0 + t0[..|t0| - |t[1..]|]
  {
    var n := |t0| - |t|;
    assert t0[..n + 1] == t0[..n] + [t[0]];
  }

  lemma ClockRx(h0: Hw, h: Hw, r: byte)
    requires |h.tx| <= |h0.tx| && RxProgress(h0, h) && h.tx != []
    ensures RxProgress(h0, h.Clock(r))
  {
    assert h.Clock(r).miso[..|h0.miso|] == h.miso[..|h0.miso|];
  }

  /** The bytes clocked out so far, one more than before. */
  lemma ShiftedGrows(t0: seq<byte>, t: seq<byte>)
    requires |t| <= |t0| && t == t0[|t0| - |t|..] && t != []
    ensures t0[..|t0| - |t| + 1] == t0[..|t0| - |t|] + [t[0]]
  {
  }

  lemma ClockWire(h0: Hw, h: Hw, r: byte)
    requires TxProgress(h0, h) && WireProgress(h0, h) && h.tx != [] && h.cs == h0.cs
    ensures WireProgress(h0, h.Clock(r))
  {
    var h' := h.Clock(r);
    var n := |h0.tx| - |h.tx|;
    var b := h.tx[0];
    assert |h'.tx| == |h.tx| - 1 && h0.Selected() == h.Selected();
    assert h0.tx[..|h0.tx| - |h'.tx|] == h0.tx[..n] + [b] by {
      ShiftedGrows(h0.tx, h.tx);
    }
    if h.Selected() {
      assert h'.wire == h.wire + [Out(b)] && h'.frame == h.frame + [b];
      WireStep(h0.wire, h.wire, h0.tx[..n], b);
    } else {
      assert h'.wire == h.wire && h'.frame == h.frame;
    }
  }

  /** The wire after one more byte clocked out while selected. */
  lemma WireStep(w0: seq<WireEvent>, w: seq<WireEvent>, shifted: seq<byte>, b: byte)
    requires w == w0 + Outs(shifted)
    ensures w + [Out(b)] == w0 + Outs(shifted + [b])
  {
    OutsAppend(shifted, [b]);
  }

  /** Clocking one more byte out extends a run of the SSI. */
  lemma ClockProgress(h0: Hw, h: Hw, r: byte)
    requires Progress(h0, h) && h.tx != [] && |h.inner| < InnerDepth && h.FlashAnswer(r)
    ensures Progress(h0, h.Clock(r))
  {
    ClockValid(h, r);
    ClockTx(h0, h, r);
    ClockWire(h0, h, r);
    ClockRx(h0, h, r);
  }

  /** Landing one more held byte extends a run of the SSI. */
  lemma LandProgress(h0: Hw, h: Hw)
    requires Progress(h0, h) && h.inner != []
    ensures Progress(h0, h.Land())
  {
    LandValid(h);
    var h' := h.Land();
    assert h'.tx == h.tx && h'.mosi == h.mosi && h'.miso == h.miso && h'.wire == h.wire && h'.frame == h.frame;
    if !h.fault && |h.rx| < FifoDepth {
      assert h'.rx[..|h0.rx|] == h.rx[..|h0.rx|];
    }
  }

  lemma PushValid(h: Hw, b: byte)
    requires h.Valid()
    ensures h.Push(b).Valid()
  {
    var h' := h.Push(b);
    if !h'.fault {
      assert h'.written == h.mosi + (h.tx + [b]);
    }
  }

  lemma PopValid(h: Hw)
    requires h.Valid()
    ensures h.Pop().Valid()
  {
    var h' := h.Pop();
    if h.rx != [] && !h.fault {
      assert h.rx == [h.rx[0]] + h.rx[1..];
      assert h'.miso == (h.popped + [h.rx[0]]) + h.rx[1..] + h.inner;
    }
  }

  lemma WriteCtrlValid(h: Hw, v: bv32, busyFor: nat)
    requires h.Valid()
    ensures h.WriteCtrl(v, busyFor).Valid()
  {
    var h' := h.WriteCtrl(v, busyFor);
    if h'.frame == [] {
      assert h'.mosi[h'.frameStart..h'.frameStart + |h'.frame|] == [];
    }
  }

  /** The flash's choice of a busy time can be read back from the state it leads to. */
  lemma WriteCtrlChoice(h: Hw, v: bv32, busyFor: nat)
    ensures h.WriteCtrl(v, busyFor) == h.WriteCtrl(v, h.WriteCtrl(v, busyFor).busyPolls)
  {
  }

  /**
   * The SSI runs on its own for a while: each step lands a held byte or
   * clocks the next byte out, the flash answering it.  When `must` is set it
   * takes at least one step if it has any to take.
   */
  method Steps(h0: Hw, must: bool) returns (h: Hw)
    requires h0.Valid()
    ensures Progress(h0, h) && h.Pending() <= h0.Pending()
    ensures must && h0.Pending() > 0 ==> h.Pending() < h0.Pending()
  {
    h := h0;
    ProgressNone(h);
    if must && h.Pending() > 0 {
      h := Tick(h0, h, false);
    }
    while h.Pending() > 0
      invariant Progress(h0, h) && h.Pending() <= h0.Pending()
      invariant must && h0.Pending() > 0 ==> h.Pending() < h0.Pending()
      decreases h.Pending()
    {
      var go: bool :| true;
      if !go {
        break;
      }
      var land: bool :| true;
      h := Tick(h0, h, land);
    }
  }

  /** One step of the SSI: land a held byte (preferred when `land` is set) or clock a byte out. */
  method Tick(ghost h0: Hw, h: Hw, land: bool) returns (h': Hw)
    requires Progress(h0, h) && h.Pending() > 0
    ensures Progress(h0, h') && h'.Pending() < h.Pending()
  {
    if h.inner != [] && (h.tx == [] || |h.inner| == InnerDepth || land) {
      LandProgress(h0, h);
      h' := h.Land();
    } else {
      assert h.FlashAnswer(if h.busyPolls > 0 then 1 else 0);
      var r: byte :| h.FlashAnswer(r);
      ClockProgress(h0, h, r);
      h' := h.Clock(r);
    }
  }

  /**
   * One register access of the driver, as the bus saw it: a read of `txflr`
   * or `rxflr`, a write or a read of `dr0`, a read of the abort condition
   * with the value it returned, and a read or a write of the SS pad control
   * register with the OUTOVER field written.
   */
  datatype Access = TxLevelRead | RxLevelRead | DataWrite | DataRead | AbortRead(raised: bool)
                  | SsCtrlRead | SsCtrlWrite(over: Outover)

  /**
   * The device as the driver sees it.  Each method is one register access,
   * preceded by the hardware running on its own, and recorded in `log`.
   */
  class Ssi {
    var hw: Hw
    /** Every register access made so far, in order: an observation the driver never reads. */
    ghost var log: seq<Access>

    ghost predicate Valid()
      reads this
    {
      hw.Valid()
    }

    /** The hardware runs for a while between two register accesses of the driver. */
    method Run()
      requires Valid()
      modifies this`hw
      ensures Advanced(old(hw), hw)
    {
      var h := Steps(hw, hw.stall == 0);
      var budget: nat;
      if h.Pending() == hw.Pending() {
        budget := if hw.Pending() > 0 then hw.stall - 1 else hw.stall;
      } else {
        budget :| true;
      }
      var raised: bool :| true;
      Settle(hw, h, h.(stall := budget, abort := hw.abort || raised));
      hw := h.(stall := budget, abort := hw.abort || raised);
    }

    /** Reads `txflr`, the transmit FIFO level. */
    method ReadTxflr() returns (level: nat)
      requires Valid()
      modifies this
      ensures Advanced(old(hw), hw) && level == |hw.tx| && log == old(log) + [TxLevelRead]
    {
      Run();
      level := |hw.tx|;
      log := log + [TxLevelRead];
    }

    /** Reads `rxflr`, the receive FIFO level. */
    method ReadRxflr() returns (level: nat)
      requires Valid()
      modifies this
      ensures Advanced(old(hw), hw) && level == |hw.rx| && log == old(log) + [RxLevelRead]
    {
      Run();
      level := |hw.rx|;
      log := log + [RxLevelRead];
    }

    /** Reads the INOVER field of the SD1 pad control: the abort condition. */
    method ReadAbort() returns (aborted: bool)
      requires Valid()
      modifies this
      ensures Advanced(old(hw), hw) && aborted == hw.abort && log == old(log) + [AbortRead(aborted)]
    {
      Run();
      aborted := hw.abort;
      log := log + [AbortRead(aborted)];
    }

    /** Reads the SS pad control register. */
    method ReadSsCtrl() returns (v: bv32)
      requires Valid()
      modifies this
      ensures Advanced(old(hw), hw) && v == hw.ssCtrl && log == old(log) + [SsCtrlRead]
    {
      Run();
      v := hw.ssCtrl;
      log := log + [SsCtrlRead];
    }

    /** Writes `b` to `dr0`; `seen` is the state the write found. */
    method WriteDr0(b: byte) returns (ghost seen: Hw)
      requires Valid()
      modifies this
      ensures Advanced(old(hw), seen) && hw == seen.Push(b) && Valid() && log == old(log) + [DataWrite]
    {
      Run();
      seen := hw;
      PushValid(hw, b);
      hw := hw.Push(b);
      log := log + [DataWrite];
    }

    /** Reads `dr0`; `seen` is the state the read found. */
    method ReadDr0() returns (b: byte, ghost seen: Hw)
      requires Valid()
      modifies this
      ensures Advanced(old(hw), seen) && hw == seen.Pop() && b == seen.Head() && Valid() && log == old(log) + [DataRead]
    {
      Run();
      seen := hw;
      PopValid(hw);
      b := hw.Head();
      hw := hw.Pop();
      log := log + [DataRead];
    }

    /**
     * Writes `v` to the SS pad control register; `seen` is the state the
     * write found.  How long an operation the write starts keeps the flash
     * busy is the flash's choice: it is the new `busyPolls`.
     */
    method WriteSsCtrl(v: bv32) returns (ghost seen: Hw)
      requires Valid()
      modifies this
      ensures Advanced(old(hw), seen) && hw == seen.WriteCtrl(v, hw.busyPolls) && Valid()
      ensures log == old(log) + [SsCtrlWrite(OutoverOf(v))]
    {
      Run();
      seen := hw;
      var busyFor: nat :| true;
      WriteCtrlValid(hw, v, busyFor);
      WriteCtrlChoice(hw, v, busyFor);
      hw := hw.WriteCtrl(v, busyFor);
      log := log + [SsCtrlWrite(OutoverOf(v))];
    }
  }
}
